=== FILE: README.md ===
# Scrap back end: relationship bookkeeping, in Dafny

Scrap is a social scrapbooking service. Authors collect *scraps* (a pair of
photos with a caption) into *books*. They befriend one another through friend
requests, and they like books. Its back end is a Node/Express server over
MongoDB. This project models the part of that back end that does the
bookkeeping on lists of ids. The database is modelled as one map from id to
record per collection:

- the friend-request handlers of `controllers/authorController.js`;
- the scrap and like handlers of `controllers/bookController.js`;
- the helpers of `other/handler.js`:
  - the bulk `$pull` filter;
  - the cascading deletes of an author, a book, a scrap and an action;
  - the two timestamp sorts;
  - the display-name, preview and acquaintance helpers;
- the read projections of `controllers/utilityController.js`:
  - the relationship between two authors;
  - public, profile and unbooked lists;
  - the `bookSearch` filters and its top-ten cut.

Each handler is a pure function. It takes the database and returns the
database it leaves behind together with what it reports. The result is
`Update(store, Ok | Err(e))`, or `Success(v) | Failure(e)` for the
read-only ones. An error that a handler body raises after saving a repaired
state is modelled with that state and the error. Mongoose's `array.pull(x)` is
`Lists.Pull` (every copy of `x` removed, order kept) and `array.push(x)` is
`Lists.Push`. Their composition, which the handlers use to make sure an entry
is present exactly once, is `Lists.Refresh`.

Files:

| file | module | source |
|---|---|---|
| lists.dfy | `Lists` | Mongoose array `pull` / `push` on id lists |
| records.dfy | `Records` | `models/*.js`: Author, Book, Scrap, Action, tokens; the error messages |
| friendship.dfy | `Friendship` | `controllers/authorController.js` friend requests and `removeAction` |
| membership.dfy | `Membership` | `controllers/bookController.js` scraps and likes |
| helpers.dfy | `Helpers` | `formatBody`, `getName`, `getAcquaintances` |
| sorting.dfy | `Sorting` | `handleScrapSort`, `handleBookSort` |
| bulk.dfy | `Bulk` | `handleMongoFilter` |
| actions.dfy | `Actions` | `deepDeleteAction` and its fan-out |
| cascade.dfy | `Cascade` | `deepDeleteScrap`, `deepDeleteBook`, `deepDeleteAuthor` |
| visibility.dfy | `Visibility` | `get` (relationship, publicBooks, profileBooks, unbookedScraps), `bookSearch` |

## Model

| member | source | states |
|---|---|---|
| Friendship.SendRequest | controllers/authorController.js:272-326 | A request to oneself, or naming a missing user or author, changes nothing and fails. Friends on either side are repaired to list each other exactly once and "already friends" is reported. Otherwise the request is pending exactly once on both sides, and "already sent" is reported iff either side already had it. Only the two records change, and only in entries naming each other. |
| Friendship.RemoveRequest | controllers/authorController.js:356-401 | Missing records fail with no change. Friends are repaired: each lists the other exactly once, and no request stays pending between them. Otherwise the user's outgoing request and the author's matching incoming one are gone, and "not sent" is reported iff either side lacked it. The friends lists and the reverse request are untouched. |
| Friendship.AcceptRequest | controllers/authorController.js:420-478 | Accepting oneself scrubs the user's own id from all three arrays and fails. Friends are repaired as in `removeRequest`. A missing request on either side clears both sides of it and reports "hasn't yet sent you a friend request", leaving friends untouched. Otherwise both sides drop the request and list each other as friends exactly once. |
| Friendship.RejectRequest | controllers/authorController.js:508-551 | Missing records fail with no change, and friends are repaired. Otherwise the author-to-user request is dropped from both sides; it succeeds iff both sides had it. Friends and the reverse request are untouched. |
| Friendship.RemoveFriend | controllers/authorController.js:571-599 | Neither side lists the other as a friend afterwards. "Not friends" is reported iff the user's own list lacked the author, whatever the author's list held. Pending requests are untouched. |
| Friendship.RemoveAction | controllers/authorController.js:616-624 | A missing author fails with no change. Otherwise the action leaves that author's `actions` (other entries keep their counts) and the Action collection. No other author changes. |
| Friendship.RemoveActionIdempotent | controllers/authorController.js:616-624 | A second `removeAction` with the same arguments changes nothing and succeeds again. |
| Friendship.RemoveActionLeavesOtherParty | controllers/authorController.js:616-624 | `removeAction` pulls the action only from the author it is given, so the other party still lists it. `deepDeleteAction` with its queries executed clears it from both parties. |
| Friendship.AcquaintancesSymmetric | other/handler.js:107-111 | While friendships and requests are paired, x is among a's acquaintances iff a is among x's. |
| Friendship.SendRequestIdempotent | controllers/authorController.js:286-312 | Repeating `sendRequest` rewrites nothing. After a success, the repeat reports "already sent". |
| Friendship.RemoveFriendIdempotent | controllers/authorController.js:580-599 | A second `removeFriend` leaves the same state and reports "not friends". |
| Friendship.CrossRequestsCoexist | controllers/authorController.js:301-326 | A user can send a request to an author whose own request to the user is still pending. Both requests then stand on both sides, so the pair states are not exclusive. |
| Friendship.PairStepKeepsPairing | controllers/authorController.js:286-326 | A step that changes only entries of the pair that name each other keeps every pair of authors agreeing about friendship and requests, as soon as the pair itself agrees. |
| Friendship.SendRequestKeepsPairing | controllers/authorController.js:286-326 | `sendRequest` preserves the invariant that A lists B as a friend iff B lists A, and that a request is outgoing on one side iff it is incoming on the other. |
| Friendship.RemoveRequestKeepsPairing | controllers/authorController.js:364-401 | `removeRequest` preserves the pairing invariant. |
| Friendship.AcceptRequestKeepsPairing | controllers/authorController.js:424-478 | `acceptRequest` preserves the pairing invariant, including when user and author coincide. |
| Friendship.RejectRequestKeepsPairing | controllers/authorController.js:517-551 | `rejectRequest` preserves the pairing invariant. |
| Friendship.RemoveFriendKeepsPairing | controllers/authorController.js:580-599 | `removeFriend` preserves the pairing invariant. |
| Membership.AddScrap | controllers/bookController.js:109-128 | A missing book or scrap fails with no change. Otherwise the book lists the scrap exactly once, as its last entry, after its other entries in their old order. The scrap points at the book, and no other book or scrap changes. |
| Membership.AddScrapLeavesOldBook | controllers/bookController.js:119-123 | `addScrap` does not detach the scrap from the book it was in: that book still lists it. |
| Membership.RemoveScrap | controllers/bookController.js:156-175 | Missing records fail with no change. Otherwise the scrap leaves the book's list, the other entries keep their counts and order, and the scrap belongs to no book. The "does not belong" error is reported iff the book did not list the scrap. |
| Membership.RemoveScrapAsWritten | controllers/bookController.js:147-156 | As written, `removeScrap` always fails with a TypeError and changes nothing. |
| Membership.RemoveScrapAsWrittenKeepsScrap | controllers/bookController.js:147-175 | A listed scrap stays listed under the code as written. With the lookups awaited, it is removed. |
| Membership.RemoveScrapIdempotent | controllers/bookController.js:156-175 | A second `removeScrap` leaves the same state and reports that the scrap does not belong to the book. |
| Membership.AddLike | controllers/bookController.js:194-230 | Missing records fail with no change. Otherwise the book's likes hold the user exactly once and the user's liked books hold the book exactly once; other entries keep their counts. "Already liked" is reported iff either side already had the entry. |
| Membership.RemoveLike | controllers/bookController.js:249-280 | Missing records fail with no change. Otherwise neither side holds the other, and other entries keep their counts. "Never liked" is reported iff either side lacked the entry. |
| Membership.LikeThenUnlike | controllers/bookController.js:220-225 | Liking a book that neither side recorded as liked, then unliking it, restores the database exactly. |
| Membership.AddLikeIdempotent | controllers/bookController.js:204-216 | A second `addLike` leaves the same state and reports "already liked". |
| Helpers.FormatBody | other/handler.js:104-106 | Text of at most 30 characters is returned unchanged. Longer text becomes its first 30 characters followed by ". . .", 35 characters in all. |
| Helpers.FormatBodyIdempotent | other/handler.js:104-106 | Formatting a preview again changes nothing. |
| Helpers.GetName | other/handler.js:130-139 | The result is the pseudonym when both names are empty. Otherwise it is the first name, then one space exactly when both names are present, then the last name. |
| Helpers.GetNameSplits | other/handler.js:133 | With both names present, the display name is exactly first name, space, last name. |
| Helpers.SplitNameInvertsGetName | other/handler.js:130-139 | When the first name is present and has no space in it, splitting the display name at its first space gives back the first and last names. |
| Helpers.GetAcquaintances | other/handler.js:107-111 | The result is the friends, then the incoming requests, then the outgoing requests, each in its own order and without removing duplicates. So each id occurs as often as in the three lists together. |
| Sorting.Insert | other/handler.js:466 | Insertion into a sorted list adds exactly the new id and puts it at the front of its run of equal timestamps, which is what keeps the right-to-left insertion sort stable. |
| Sorting.InsertSorted | other/handler.js:466 | Insertion keeps the list sorted. |
| Sorting.Sort | other/handler.js:466 | The result is ascending by timestamp and a permutation of the input. Ids with equal timestamps keep their input order, as in a stable `Array.prototype.sort`. |
| Sorting.SortedUnique | other/handler.js:466 | Two ascending lists with the same runs of equal timestamps are equal, so the stable sort has exactly one possible result. |
| Sorting.ResolveAndSortIsStable | other/handler.js:447-472 | Any ascending list that keeps the input's runs of equal timestamps is the resolve-then-sort result. |
| Sorting.HandleScrapSort | other/handler.js:447-472 | The result holds the ids that resolve to a scrap, each as often as given, and no others. It is ascending by `createdAt`, and equal timestamps keep their given order. |
| Sorting.HandleBookSort | other/handler.js:473-498 | Same as `HandleScrapSort`, for books ordered by `beginDate`. |
| Lists.PullCommutes | other/handler.js:251-255 | Pulling two values from one list gives the same list in either order. So two `deepDeleteAction` calls that both pull from one author's `actions` list commute. |
| Bulk.HandleMongoFilter | other/handler.js:177-184 | Afterwards no record of the collection holds the value in the filtered array. Records that did not hold it are untouched. Other entries keep their counts and order, and other arrays and collections are untouched. |
| Bulk.HandleMongoFilterIdempotent | other/handler.js:177-184 | Running a filter twice is running it once. |
| Bulk.HandleMongoFilterNoop | other/handler.js:180 | A filter over a collection where nothing holds the value changes nothing. |
| Bulk.FilterKeepsCleared | other/handler.js:271-280 | A filter only removes entries, so a value already cleared from an array stays cleared whatever filter runs next. |
| Actions.DeepDeleteAction | other/handler.js:397-413 | A missing action fails with no change. Otherwise the action is gone and it is pulled from its sender's and target's lists: every copy of it leaves, and their other entries stay in order. No other record changes. |
| Actions.DeepDeleteActionAsWritten | other/handler.js:406-412 | As written, the three queries are never executed: an existing action is reported deleted and nothing changes. |
| Actions.DeepDeleteActionAsWrittenKeepsAction | other/handler.js:406-412 | As written, a "successful" deletion leaves the action in place; with the queries executed, it is gone. |
| Actions.DeleteActions | other/handler.js:243-255 | Deleting a set of actions removes exactly those from the collection. Each author's list loses every copy of the deleted actions that involve that author and keeps every other entry, in order and with its repeats. Nothing else changes. |
| Actions.DeleteActionsStep | other/handler.js:252-255 | Deleting one action of the set, then the rest, is deleting the set at once. |
| Actions.DeleteActionsIsSequential | other/handler.js:252-255 | Applying `deepDeleteAction` to each distinct found action in turn, in any order, succeeds and leaves exactly the bulk deletion behind. |
| Actions.DeleteEachAsWritten | other/handler.js:252-255 | As written, the fan-out of `deepDeleteAction` leaves the database exactly as it was, and succeeds iff every id names an action. |
| Actions.DeleteActionsAsWritten | other/handler.js:251-255 | As written, the fan-out over the actions one `Action.find` returns deletes nothing. It fails only with `ActionMissing`, and only when some id has no document. |
| Actions.DeleteActionsAsWrittenIsSequential | other/handler.js:251-255 | The calls made one at a time, in any order and with repeats, leave exactly what the fan-out over the set of their ids leaves. |
| Actions.DeleteEachAsWrittenKeepsActions | other/handler.js:252-255 | Over distinct existing actions, the fan-out as written deletes nothing, where the executed fan-out deletes every one of them. |
| Cascade.DeepDeleteScrap | other/handler.js:335-396 | A missing scrap fails with no change. After the saves, a TypeError is reported iff the author exists and their remaining library lists an id with no scrap document, as `getCoordinates` (line 385) reads each one. The scrap document is deleted iff the call succeeds. No record is created, and authors, books and tokens keep their keys. |
| Cascade.UnlinkScrap | other/handler.js:357-382 | Covers showing the scrap's photos are blanked and the scrap's book drops it. Its author drops it and the photos from the headshot and cover. Every other book field and every other author is untouched. |
| Cascade.DeepDeleteScrapEffects | other/handler.js:342-396 | Whichever way `deepDeleteScrap` ends: no action names the scrap, its book and its author no longer list it, and no other book's list changes. No book cover shows its photos, and neither do its author's headshot or cover. On success the scrap document is gone. |
| Cascade.DeepDeleteScrapAsWritten | other/handler.js:335-378 | As written, no action is deleted and the covers are cleared, then a TypeError is raised. Only book covers change: the scrap, its book entry and its author entry survive. |
| Cascade.DeepDeleteScrapAsWrittenLeavesScrap | other/handler.js:361-378 | As written, the cascade fails on every existing scrap and leaves it listed in its book. With the lookups awaited, the book drops it, and when the author's other scraps all resolve, the call succeeds and the scrap is gone. |
| Cascade.DetachScraps | other/handler.js:322-330 | The scraps before the first missing id are set to belong to no book, and the rest are untouched. The loop fails iff some listed id is missing, and only the `book` field changes. |
| Cascade.UnreferenceBook | other/handler.js:312-319 | Afterwards no scrap threads the book, and no author's library or liked books hold it. Scraps keep every other field, and books, actions and tokens are untouched. |
| Cascade.FinishBook | other/handler.js:321-333 | The scrap loop and book deletion succeed iff every listed scrap exists. Then each listed scrap belongs to no book and the book document is gone. On failure the books are untouched. Only the scraps' `book` fields change. |
| Cascade.DeepDeleteBook | other/handler.js:291-334 | A missing book fails with no change. The call succeeds iff every listed scrap exists, and the book is deleted iff it succeeds. No record is created. |
| Cascade.DeepDeleteBookEffects | other/handler.js:298-333 | Whichever way the cascade ends: no action names the book, no scrap threads it, and no library or liked-books list holds it. On success every scrap it listed belongs to no book. |
| Cascade.DeepDeleteBookAsWritten | other/handler.js:291-334 | As written, no action is deleted. The rest is as in `DeepDeleteBook`: it succeeds iff every listed scrap exists, and the book is deleted iff it succeeds. |
| Cascade.DeepDeleteBookAsWrittenKeepsActions | other/handler.js:298-310 | An action naming the book survives `deepDeleteBook` as written. With the queries executed, it is gone. |
| Cascade.UnreferenceAuthor | other/handler.js:271-280 | Afterwards no author's friends or pending requests hold the author, and no book's likes do. Scraps, actions and tokens are untouched, and no document is created or deleted. |
| Cascade.DeepDeleteAuthor | other/handler.js:232-290 | A missing author fails with no change. The author document is deleted iff the cascade succeeds, and nothing is created. |
| Cascade.DeepDeleteAuthorEffects | other/handler.js:242-289 | After a successful author deletion: the author and every scrap and book they listed are gone. No friends or request list and no likes list holds them, and no action names them. No token points at them or carries their email. |
| Cascade.DeleteScraps | other/handler.js:257-262 | The `Promise.all` over the awaited `deepDeleteScrap` calls creates no record and keeps the keys of authors and books and every token. When it succeeds, every listed scrap is gone. |
| Cascade.DeleteBooks | other/handler.js:264-269 | The `Promise.all` over the `deepDeleteBook` calls creates no record and keeps the keys of authors and every token. When it succeeds, every listed book is gone. |
| Cascade.DeepDeleteAuthorSucceeds | other/handler.js:232-290 | The corrected `Cascade.DeepDeleteAuthor` (lookups awaited, action queries executed) succeeds and removes the author when three things hold. The author lists distinct scraps of their own, all on record. They list distinct books on record. Each of those books lists only scraps on record that name it as their book. |
| Cascade.DeleteOwnScrapHead | other/handler.js:335-396 | In the corrected `Cascade.DeepDeleteScrap`, deleting the first scrap of an author's own distinct library succeeds and leaves the rest of the library. It keeps every book holding only scraps on record. |
| Cascade.DeleteOwnScraps | other/handler.js:257-262 | The corrected scrap phase (`Cascade.DeleteScraps`) succeeds on an author's own distinct scraps and keeps every book holding only scraps on record. |
| Cascade.DeleteResolvedBooks | other/handler.js:264-269 | The corrected book phase (`Cascade.DeleteBooks`) succeeds on distinct books on record whose listed scraps are all on record. |
| Cascade.DeepDeleteAuthorNeedsRecords | other/handler.js:257-269 | A listed scrap or book with no document makes the corrected `Cascade.DeepDeleteAuthor` fail, and the author stays on record. |
| Cascade.DeleteScrapsMissing | other/handler.js:257-262 | A listed scrap with no document makes the scrap phase report an error. |
| Cascade.DeleteBooksMissing | other/handler.js:264-269 | A listed book with no document makes the book phase report an error. |
| Cascade.DeleteScrapsAsWritten | other/handler.js:257-262 | The fan-out of `deepDeleteScrap` as written fails iff the author lists any scrap, with a TypeError when every listed scrap exists. Only book covers change. |
| Cascade.DeleteBooksAsWritten | other/handler.js:264-269 | As written, the fan-out over the books deletes no action and creates no record, and it keeps the keys of authors and every token. When it succeeds, every listed book is gone. |
| Cascade.DeepDeleteAuthorAsWritten | other/handler.js:232-290 | As written, no action is ever deleted. An author who lists any scrap makes the cascade fail with authors and scraps untouched. The author is deleted only on success. |
| Cascade.DeepDeleteAuthorAsWrittenKeepsAuthor | other/handler.js:242-262 | An author with one existing scrap of their own and no books: as written the cascade reports a TypeError and keeps both. With everything awaited, it succeeds and deletes both. |
| Visibility.Classify | controllers/utilityController.js:45-58 | The five relationships are decided in order: "friend" iff the id is among the user's friends; otherwise "self" iff it is the user; otherwise "outgoingFriendRequest" iff the user has a request out to it; otherwise "incomingFriendRequest" iff it has a request in from it; otherwise "none". |
| Visibility.GetRelationship | controllers/utilityController.js:42-61 | An unknown user fails. Otherwise the result is the five-way classification of `Visibility.Classify` on the user's record: "friend" iff the id is a friend, and "self" or "friend" iff the id is the user or a friend. |
| Visibility.SearchClassify | controllers/utilityController.js:334-346 | `bookSearch` checks in its own order: "self" iff the creator is the searcher; otherwise "friend" iff the creator is a friend; otherwise "incomingFriendRequest" iff a request is in from the creator; otherwise "outgoingFriendRequest" iff one is out to them; otherwise "none". |
| Visibility.ClassifiersDiffer | controllers/utilityController.js:45-58 | The classifiers of `get` and `bookSearch` disagree only for an author who lists themself as a friend, and for two authors with requests pending both ways. |
| Visibility.ClassifiersAgreeOnAccess | controllers/utilityController.js:330-349 | Both classifiers grant "self or friend" to exactly the same authors: oneself and one's friends. |
| Visibility.RelationshipSymmetric | controllers/utilityController.js:45-58 | While friendships and requests are paired, two authors are friends of each other or of neither, and unrelated both ways or neither. An incoming request on one side is an outgoing one on the other. |
| Visibility.PublicBooks | controllers/utilityController.js:63-80 | An unknown author fails. Otherwise the result is the author's books that exist and are public, in the author's order, with their repeats. |
| Visibility.ProfileBooks | controllers/utilityController.js:81-108 | An unknown user or author fails. The author sees their own list unchanged. A friend sees every listed book that exists. Anyone else sees the existing public books. Order is kept. |
| Visibility.ProfileBooksAsWritten | controllers/utilityController.js:22 | As written, `getRelationship` is not defined by the module it is imported from. Every profile of two existing authors fails. |
| Visibility.ProfileBooksAsWrittenFails | controllers/utilityController.js:85 | For two existing authors the profile fails as written and succeeds with the classifier of `get`. |
| Visibility.ProfileShowsPublic | controllers/utilityController.js:87-105 | Every viewer's profile list contains the public list as a subsequence. |
| Visibility.ViewableGrows | controllers/utilityController.js:95-102 | Opening private books only adds entries to the public view. |
| Visibility.FriendSeesEverything | controllers/utilityController.js:87-105 | When every listed book exists, a friend sees the same list as the author. |
| Visibility.OthersSeePublic | controllers/utilityController.js:92-105 | A viewer who is neither the author nor a friend sees exactly the public list. |
| Visibility.UnbookedScraps | controllers/utilityController.js:128-144 | An unknown author fails. Otherwise the result is the author's scraps that exist and belong to no book, in order. |
| Visibility.RemoveScrapUnbooks | controllers/utilityController.js:131-140 | A scrap that `removeScrap` takes out of a book shows among its author's unbooked scraps. |
| Visibility.AddScrapBooks | controllers/utilityController.js:131-140 | A scrap that `addScrap` puts in a book no longer shows among its author's unbooked scraps. |
| Visibility.Unrestricted | controllers/utilityController.js:330-349 | The `restrictedBooks` test keeps a book iff it is public, or its creator is the searcher or a friend. Pending requests open nothing. |
| Visibility.Apply | controllers/utilityController.js:318-349 | One `remove` filter keeps exactly the found books that pass it, in order, with their repeats. |
| Visibility.SearchFilter | controllers/utilityController.js:315-350 | The three `remove` filters, run in order, keep each found book as often as it was found when it passes every filter `remove` names, and drop it otherwise. They keep the found order. |
| Visibility.Admit | controllers/utilityController.js:318-349 | The one-pass reference: it keeps exactly the found books that pass every filter `remove` names, in order. |
| Visibility.SearchFilterOnePass | controllers/utilityController.js:318-349 | Running `selfBooks`, `privateBooks` and `restrictedBooks` one after another equals the one-pass filter. |
| Visibility.BookSearch | controllers/utilityController.js:314-353 | An unknown searcher fails. Otherwise the result has at most 10 ids and is a permutation of the first ten books that pass the named filters. It is ascending by `beginDate`, and equal dates keep their search order. |
| Visibility.BookSearchAdmits | controllers/utilityController.js:318-352 | Every returned book was found, passes every named filter, and is among the first ten that do. |

## Left out

- HTTP and validation plumbing: handlers are functions of their inputs, and errors are `Error` values. Every source message "Could not get …" is `AuthorMissing`.
- Accounts, credentials, e-mail, S3 photos, image resizing, push notifications and `handleAction`: they are external services or do no list bookkeeping.
- The mileage value computed in `deepDeleteScrap` (other/handler.js:385-388): it is floating-point geometry over coordinates. The failure of `getCoordinates` on an id with no document is modelled.
- Concurrency: each `Promise.all` is modelled as its calls in listed order. Every call runs, the first error is the one reported, and a failed phase stops the cascade.
- Saving both documents when `user == author`: `removeRequest`, `rejectRequest` and `removeFriend` do not refuse one id on both sides. The two saves of the one document then race, and the model lets the author's save land last.
- Friendship.RemoveRequestKeepsPairing: stated for `user != author` only. With one id on both sides, the two saves of one document race and the surviving state is not determined.
- Friendship.RejectRequestKeepsPairing: stated for `user != author` only, for the same reason.
- Friendship.RemoveFriendKeepsPairing: stated for `user != author` only, for the same reason.
- Schema fields: `Book.isPublic`, `Book.beginDate` and `Scrap.book` are read by the handlers but not declared in `models/*.js`. They are modelled as the handlers use them, with `beginDate` and `createdAt` as integer timestamps.
- Cascade.DeepDeleteScrap: with its lookups awaited, a scrap whose author or book has no document would still fail on a null document. The corrected model skips that record instead.
- Cascade.DeepDeleteScrap: it composes the executed `deepDeleteAction` (other/handler.js:406-412), so the actions naming the scrap are deleted. Awaiting the lookups at lines 361 and 376 alone would leave those actions in place.
- Cascade.DeepDeleteScrapEffects: "no action names the scrap" needs the executed `deepDeleteAction` as well as the awaited lookups.
- Cascade.DeepDeleteBook: it composes the executed `deepDeleteAction`, so the actions naming the book are deleted. The code as written is `Cascade.DeepDeleteBookAsWritten`.
- Cascade.DeepDeleteBookEffects: it describes `Cascade.DeepDeleteBook`, built from the executed `deepDeleteAction`.
- Cascade.DeepDeleteAuthor: it composes the executed `deepDeleteAction`, the awaited `deepDeleteScrap` and `Cascade.DeepDeleteBook`. The code as written is `Cascade.DeepDeleteAuthorAsWritten`.
- Cascade.DeepDeleteAuthorEffects: it describes `Cascade.DeepDeleteAuthor`. As written, that success is reached only by an author who lists no scrap, and the actions naming them survive.
- Friendship.SendRequest: the outcome is that of the handler body. After both saves its success path calls `handleAction` with one argument (controllers/authorController.js:328), while other/handler.js:53-62 destructures the third parameter. That throws a TypeError, so the client gets an error where the model reports `Ok`. The saved state is as modelled.
- Friendship.AcceptRequest: the outcome is that of the handler body. Its success path has the same one-argument `handleAction` call (controllers/authorController.js:480), which throws after both saves.
- Membership.AddScrap, Membership.RemoveScrap, Membership.AddLike, Membership.RemoveLike: controllers/bookController.js:8-11 imports neither `body` nor `validationResult`, `handleError` or `handleResponse`. As written, each handler throws a ReferenceError on its first statement, before any lookup, and changes nothing. The model gives the outcome of the handler body with those imports in place. This also makes the `removeScrap` defect under Findings unreachable until the imports are restored.
- The fan-out of `deepDeleteAction` over an `Action.find` result is modelled as one bulk deletion. `Actions.DeleteActionsIsSequential` proves it equal to the calls made one at a time.
- Sorting: the comparators subtract timestamps. A missing `beginDate` or `createdAt` would make the comparison NaN, and the model gives every record an integer timestamp.
- Helpers.FormatBody: it counts characters, where JavaScript slices UTF-16 code units.
- The text query of `bookSearch` (regex over title, place and description, sorted by relevance) is a parameter: `found` is the sequence of matched book ids in query order.
- The `feed` key of `get` is not modelled, and neither are `authorSearch` and the generic `get`/`set` by model name.
- `addThread`, `removeThread` and `saveBook`: they call functions or read variables that no shown file defines.

## Findings

| source | as written | input that shows it | evidently intended | confidence | as-written member | corrected member |
|---|---|---|---|---|---|---|
| controllers/bookController.js:147-151 | `Book.findById` and `Scrap.findById` are not awaited, so `bookModel.scraps.includes` reads a field of a query object and throws | any existing book and scrap, with the scrap listed in the book | awaited lookups; the scrap is detached | not executed | Membership.RemoveScrapAsWritten | Membership.RemoveScrap |
| other/handler.js:361-377 | `Author.findById` and `Book.findById` are not awaited; after the cover update, `bookModel.scraps.pull` throws | any existing scrap | awaited lookups, with the `deepDeleteAction` queries of the row for lines 406-412 executed; the scrap's actions are deleted and the scrap leaves its book and its author | not executed | Cascade.DeepDeleteScrapAsWritten | Cascade.DeepDeleteScrap |
| other/handler.js:242-262 | the actions of the author fan out to `deepDeleteAction`, which executes nothing, and every `deepDeleteScrap` call throws, so the `Promise.all` over the scraps rejects before the books, the filters, the tokens and the author document are reached | an author listing one existing scrap of their own and no books | the author, their scraps and every reference to them are deleted | not executed | Cascade.DeepDeleteAuthorAsWritten | Cascade.DeepDeleteAuthor |
| other/handler.js:298-310 | the actions naming the book fan out to `deepDeleteAction`, which executes nothing | a book named by an existing action | the actions naming the book are deleted | not executed | Cascade.DeepDeleteBookAsWritten | Cascade.DeepDeleteBook |
| other/handler.js:406-412 | the two `updateOne` queries and the `deleteOne` query are built but never awaited or executed | any existing action | the action leaves both authors' lists and the collection | not executed | Actions.DeepDeleteActionAsWritten | Actions.DeepDeleteAction |
| controllers/utilityController.js:22-85 | `getRelationship` is imported from other/handler.js, which neither defines nor exports it, so the call at line 85 throws | any two existing authors | the relationship of `get` decides the profile | not executed | Visibility.ProfileBooksAsWritten | Visibility.ProfileBooks |

Other behaviour the model follows as written:

- The `privateBooks` filter keeps only the books that are *not* public, although the comment above it says it removes private books.
- `addScrap` does not take the scrap out of its previous book.
- In `removeScrap`, the second disjunct `!scrapModel.book === book` compares a boolean with a string and is never true.

=== FILE: actions.dfy ===
/**
 other/handler.js `deepDeleteAction` and the way the cascades fan it out over
 the result of an `Action.find`. An action is listed in the `actions` array
 of its sender and of its target; deleting it pulls it from both and drops
 the Action document.
 */
module Actions {
  import opened Lists
  import opened Records

  /** `author` is one of the two parties of `act`. */
  predicate Involves(act: Action, author: Id) {
    act.senderAuthor == author || act.targetAuthor == author
  }

  /**
   The two `updateOne({_id: party}, {$pull: {actions: x}})` calls on the
   parties of `act`; when sender and target coincide the second pull finds
   nothing left to remove, and a party with no Author document is skipped.
   */
  function Unlist(authors: map<Id, Author>, act: Action, x: Id): (r: map<Id, Author>)
    ensures r.Keys == authors.Keys
    ensures forall k :: k in authors ==>
      r[k] == if Involves(act, k) then authors[k].(actions := Pull(authors[k].actions, x)) else authors[k]
  {
    map k | k in authors :: if Involves(act, k) then authors[k].(actions := Pull(authors[k].actions, x)) else authors[k]
  }

  /** other/handler.js `deepDeleteAction`, with its three updates awaited. */
  function DeepDeleteAction(db: Db, x: Id): (r: Update<Db>)
    ensures x !in db.actions ==> r == Update(db, Err(ActionMissing))
    ensures x in db.actions ==>
      && r.outcome == Ok
      && r.store == db.(authors := r.store.authors, actions := r.store.actions)
      && r.store.actions == db.actions - {x}
      && r.store.authors.Keys == db.authors.Keys
      && (forall k :: k in db.authors && Involves(db.actions[x], k) ==> x !in r.store.authors[k].actions)
      && (forall k :: k in db.authors && Involves(db.actions[x], k) ==>
            r.store.authors[k].actions == Pull(db.authors[k].actions, x))
      && (forall k :: k in db.authors && !Involves(db.actions[x], k) ==> r.store.authors[k] == db.authors[k])
      && (forall k :: k in db.authors ==> r.store.authors[k] == db.authors[k].(actions := r.store.authors[k].actions))
  {
    if x !in db.actions then Update(db, Err(ActionMissing))
    else Update(db.(authors := Unlist(db.authors, db.actions[x], x), actions := db.actions - {x}), Ok)
  }

  /**
   other/handler.js `deepDeleteAction` as written: the two `updateOne` and the
   `deleteOne` queries are built but never awaited or executed, so once the
   action is found nothing changes and success is reported.
   */
  function DeepDeleteActionAsWritten(db: Db, x: Id): (r: Update<Db>)
    ensures x !in db.actions ==> r == Update(db, Err(ActionMissing))
    ensures x in db.actions ==> r == Update(db, Ok)
  {
    if x !in db.actions then Update(db, Err(ActionMissing)) else Update(db, Ok)
  }

  /** As written, a "successful" deletion leaves the action in place and listed; awaited, it is gone. */
  lemma DeepDeleteActionAsWrittenKeepsAction(db: Db, x: Id)
    requires x in db.actions
    ensures DeepDeleteActionAsWritten(db, x).outcome == Ok && x in DeepDeleteActionAsWritten(db, x).store.actions
    ensures DeepDeleteAction(db, x).outcome == Ok && x !in DeepDeleteAction(db, x).store.actions
  {
  }

  /** The fan-out of `deepDeleteAction` as written over the ids one `Action.find` returns. */
  function DeleteEachAsWritten(db: Db, order: seq<Id>): (r: Update<Db>)
    ensures r.store == db
    ensures r.outcome == Ok <==> forall i :: 0 <= i < |order| ==> order[i] in db.actions
    decreases |order|
  {
    if |order| == 0 then Update(db, Ok)
    else
      var first := DeepDeleteActionAsWritten(db, order[0]);
      var rest := DeleteEachAsWritten(first.store, order[1..]);
      assert forall i :: 1 <= i < |order| ==> order[i] == order[1..][i - 1];
      Update(rest.store, if first.outcome.Err? then first.outcome else rest.outcome)
  }

  /**
   The fan-out of `deepDeleteAction` as written over the result of one
   `Action.find`, taken as a set: nothing is deleted, and it fails only on an
   id with no document, which a found action never is.
   */
  function DeleteActionsAsWritten(db: Db, found: set<Id>): (r: Update<Db>)
    ensures r.store == db
    ensures r.outcome == Ok <==> forall x :: x in found ==> x in db.actions
    ensures r.outcome.Err? ==> r.outcome == Err(ActionMissing)
  {
    Update(db, if forall x :: x in found ==> x in db.actions then Ok else Err(ActionMissing))
  }

  /** The calls made one at a time, in any order and with repeats, leave what the set form leaves. */
  lemma DeleteActionsAsWrittenIsSequential(db: Db, order: seq<Id>)
    ensures DeleteEachAsWritten(db, order) == DeleteActionsAsWritten(db, set i | 0 <= i < |order| :: order[i])
  {
    var found := set i | 0 <= i < |order| :: order[i];
    assert (forall x :: x in found ==> x in db.actions) <==> (forall i :: 0 <= i < |order| ==> order[i] in db.actions);
  }

  /** As written the fan-out over found actions deletes nothing, where the executed one deletes them all. */
  lemma DeleteEachAsWrittenKeepsActions(db: Db, order: seq<Id>)
    requires forall i, j :: 0 <= i < j < |order| ==> order[i] != order[j]
    requires forall i :: 0 <= i < |order| ==> order[i] in db.actions
    ensures DeleteEachAsWritten(db, order) == Update(db, Ok)
    ensures forall i :: 0 <= i < |order| ==> order[i] !in DeleteEach(db, order).store.actions
  {
    DeleteActionsIsSequential(db, order);
  }

  /** The entries of `list` that survive deleting the actions `doomed`, as seen by author `k`. */
  function Surviving(list: seq<Id>, acts: map<Id, Action>, doomed: set<Id>, k: Id): (r: seq<Id>)
    ensures forall y :: y in r <==> y in list && !(y in doomed && y in acts && Involves(acts[y], k))
    ensures forall y :: Count(r, y) == if y in doomed && y in acts && Involves(acts[y], k) then 0 else Count(list, y)
    ensures IsSubsequence(r, list)
  {
    if |list| == 0 then []
    else
      assert list == [list[0]] + list[1..];
      var rest := Surviving(list[1..], acts, doomed, k);
      if list[0] in doomed && list[0] in acts && Involves(acts[list[0]], k) then
        SubsequencePrepend(rest, list[1..], list[0]);
        rest
      else
        SubsequenceCons(rest, list[1..], list[0]);
        [list[0]] + rest
  }

  /**
   Deleting a set of actions at once: the fan-out of `deepDeleteAction` over
   the result of one `Action.find`. `DeleteActionsIsSequential` shows it is
   what deleting them one at a time, in any order, leaves behind.
   */
  function DeleteActions(db: Db, doomed: set<Id>): (r: Db)
    ensures r == db.(authors := r.authors, actions := r.actions)
    ensures r.actions == db.actions - doomed
    ensures r.authors.Keys == db.authors.Keys
    ensures forall k :: k in db.authors ==> r.authors[k] == db.authors[k].(actions := r.authors[k].actions)
    ensures forall k, x :: k in db.authors && x in doomed && x in db.actions && Involves(db.actions[x], k) ==>
      x !in r.authors[k].actions
    ensures forall k :: k in db.authors ==> r.authors[k].actions == Surviving(db.authors[k].actions, db.actions, doomed, k)
  {
    db.(authors := Prune(db.authors, db.actions, doomed), actions := db.actions - doomed)
  }

  /** Every author's `actions` list after the doomed actions are deleted. */
  function Prune(authors: map<Id, Author>, acts: map<Id, Action>, doomed: set<Id>): (r: map<Id, Author>)
    ensures r.Keys == authors.Keys
    ensures forall k :: k in authors ==> r[k] == authors[k].(actions := Surviving(authors[k].actions, acts, doomed, k))
  {
    map k | k in authors :: authors[k].(actions := Surviving(authors[k].actions, acts, doomed, k))
  }

  /** One step of `Surviving` on a list written as head and tail. */
  lemma SurvivingHead(h: Id, t: seq<Id>, acts: map<Id, Action>, doomed: set<Id>, k: Id)
    ensures Surviving([h] + t, acts, doomed, k)
         == if h in doomed && h in acts && Involves(acts[h], k) then Surviving(t, acts, doomed, k)
            else [h] + Surviving(t, acts, doomed, k)
  {
    assert ([h] + t)[0] == h && ([h] + t)[1..] == t;
  }

  /** Deleting one doomed action, then the rest, leaves one author's list as deleting all at once does. */
  lemma {:induction false} SurvivingStep(list: seq<Id>, acts: map<Id, Action>, doomed: set<Id>, k: Id, x: Id)
    requires x in doomed && x in acts
    ensures Surviving(if Involves(acts[x], k) then Pull(list, x) else list, acts - {x}, doomed - {x}, k)
         == Surviving(list, acts, doomed, k)
  {
    if |list| > 0 {
      var h, t := list[0], list[1..];
      SurvivingStep(t, acts, doomed, k, x);
      assert list == [h] + t;
      PullHead(h, t, x);
      SurvivingHead(h, t, acts, doomed, k);
      if !(h == x && Involves(acts[x], k)) {
        SurvivingHead(h, if Involves(acts[x], k) then Pull(t, x) else t, acts - {x}, doomed - {x}, k);
      }
    }
  }

  /** On the authors alone: pulling one doomed action and then pruning the others is pruning them all. */
  lemma PruneStep(authors: map<Id, Author>, acts: map<Id, Action>, doomed: set<Id>, x: Id)
    requires x in doomed && x in acts
    ensures Prune(Unlist(authors, acts[x], x), acts - {x}, doomed - {x}) == Prune(authors, acts, doomed)
  {
    var lhs := Prune(Unlist(authors, acts[x], x), acts - {x}, doomed - {x});
    var rhs := Prune(authors, acts, doomed);
    forall k | k in authors
      ensures lhs[k] == rhs[k]
    {
      SurvivingStep(authors[k].actions, acts, doomed, k, x);
    }
  }

  /** Deleting one doomed action and then the others is deleting them all at once. */
  lemma DeleteActionsStep(db: Db, doomed: set<Id>, x: Id)
    requires x in doomed && x in db.actions
    ensures DeleteActions(DeepDeleteAction(db, x).store, doomed - {x}) == DeleteActions(db, doomed)
  {
    PruneStep(db.authors, db.actions, doomed, x);
    assert db.actions - {x} - (doomed - {x}) == db.actions - doomed;
  }

  /** Deleting no actions leaves an author's list as it was. */
  lemma {:induction false} SurvivingNone(list: seq<Id>, acts: map<Id, Action>, k: Id)
    ensures Surviving(list, acts, {}, k) == list
  {
    if |list| > 0 {
      SurvivingNone(list[1..], acts, k);
      assert list == [list[0]] + list[1..];
    }
  }

  /** Deleting no actions changes nothing. */
  lemma DeleteActionsNone(db: Db)
    ensures DeleteActions(db, {}) == db
  {
    forall k | k in db.authors
      ensures DeleteActions(db, {}).authors[k] == db.authors[k]
    {
      SurvivingNone(db.authors[k].actions, db.actions, k);
    }
    assert DeleteActions(db, {}).authors == db.authors;
  }

  /** `deepDeleteAction` applied to each id in turn; every call runs and the first error is reported. */
  function DeleteEach(db: Db, order: seq<Id>): (r: Update<Db>)
    ensures r.store.authors.Keys == db.authors.Keys
    ensures r.store.actions == db.actions - set x | x in order
    decreases |order|
  {
    if |order| == 0 then Update(db, Ok)
    else
      var first := DeepDeleteAction(db, order[0]);
      var rest := DeleteEach(first.store, order[1..]);
      assert (set x | x in order) == {order[0]} + (set x | x in order[1..]);
      Update(rest.store, if first.outcome.Err? then first.outcome else rest.outcome)
  }

  /**
   The fan-out over the ids one `Action.find` returns (each once, each an
   existing action), whatever order the calls take effect in, leaves exactly
   the bulk deletion behind and reports success.
   */
  lemma {:induction false} DeleteActionsIsSequential(db: Db, order: seq<Id>)
    requires forall i, j :: 0 <= i < j < |order| ==> order[i] != order[j]
    requires forall i :: 0 <= i < |order| ==> order[i] in db.actions
    ensures DeleteEach(db, order) == Update(DeleteActions(db, set x | x in order), Ok)
    decreases |order|
  {
    var doomed := set x | x in order;
    if |order| == 0 {
      DeleteActionsNone(db);
      assert doomed == {};
    } else {
      var x := order[0];
      var mid := DeepDeleteAction(db, x).store;
      var tail := set y | y in order[1..];
      assert doomed - {x} == tail by {
        assert forall i :: 1 <= i < |order| ==> order[i] != x;
      }
      DeleteActionsIsSequential(mid, order[1..]);
      DeleteActionsStep(db, doomed, x);
    }
  }
}

=== FILE: bulk.dfy ===
/**
 other/handler.js `handleMongoFilter(model, key, value)`: one `updateMany`
 that pulls `value` from the array `key` of every document of `model` that
 contains it. Only the (model, key) pairs the cascades use are modelled.
 */
module Bulk {
  import opened Lists
  import opened Records

  /** The Author arrays a cascade filters. */
  datatype AuthorArray = FriendList | IncomingList | OutgoingList | BookList | LikedBookList

  /** The (model, key) pairs passed to `handleMongoFilter`. */
  datatype Filter =
    | AuthorFilter(field: AuthorArray)   // 'Author', 'friends' | 'incomingFriendRequests' | ... | 'likedBooks'
    | BookLikes                          // 'Book', 'likes'
    | ScrapThreads                       // 'Scrap', 'threads'

  function AuthorArrayOf(a: Author, f: AuthorArray): seq<Id> {
    match f
    case FriendList => a.friends
    case IncomingList => a.incomingFriendRequests
    case OutgoingList => a.outgoingFriendRequests
    case BookList => a.books
    case LikedBookList => a.likedBooks
  }

  /** Replace one Author array with `s`; every other field stays as it was. */
  function WithArray(a: Author, f: AuthorArray, s: seq<Id>): (r: Author)
    ensures AuthorArrayOf(r, f) == s
    ensures forall g :: g != f ==> AuthorArrayOf(r, g) == AuthorArrayOf(a, g)
    ensures r.(friends := a.friends, incomingFriendRequests := a.incomingFriendRequests,
               outgoingFriendRequests := a.outgoingFriendRequests, books := a.books,
               likedBooks := a.likedBooks) == a
    ensures s == AuthorArrayOf(a, f) ==> r == a
  {
    match f
    case FriendList => a.(friends := s)
    case IncomingList => a.(incomingFriendRequests := s)
    case OutgoingList => a.(outgoingFriendRequests := s)
    case BookList => a.(books := s)
    case LikedBookList => a.(likedBooks := s)
  }

  /** `$pull` on one Author array; every other field stays as it was. */
  function PullAuthor(a: Author, f: AuthorArray, v: Id): (r: Author)
    ensures AuthorArrayOf(r, f) == Pull(AuthorArrayOf(a, f), v)
    ensures forall g :: g != f ==> AuthorArrayOf(r, g) == AuthorArrayOf(a, g)
    ensures r.(friends := a.friends, incomingFriendRequests := a.incomingFriendRequests,
               outgoingFriendRequests := a.outgoingFriendRequests, books := a.books,
               likedBooks := a.likedBooks) == a
    ensures v !in AuthorArrayOf(a, f) ==> r == a
  {
    WithArray(a, f, Pull(AuthorArrayOf(a, f), v))
  }

  /** No record of the filtered collection still holds `v` in the filtered array. */
  ghost predicate Cleared(db: Db, f: Filter, v: Id) {
    match f
    case AuthorFilter(g) => forall k :: k in db.authors ==> v !in AuthorArrayOf(db.authors[k], g)
    case BookLikes => forall k :: k in db.books ==> v !in db.books[k].likes
    case ScrapThreads => forall k :: k in db.scraps ==> v !in db.scraps[k].threads
  }

  function FilterAuthors(authors: map<Id, Author>, g: AuthorArray, v: Id): (r: map<Id, Author>)
    ensures r.Keys == authors.Keys
    ensures forall k :: k in authors ==> r[k] == PullAuthor(authors[k], g, v)
  {
    map k | k in authors :: PullAuthor(authors[k], g, v)
  }

  function FilterLikes(books: map<Id, Book>, v: Id): (r: map<Id, Book>)
    ensures r.Keys == books.Keys
    ensures forall k :: k in books ==> r[k] == books[k].(likes := Pull(books[k].likes, v))
  {
    map k | k in books :: books[k].(likes := Pull(books[k].likes, v))
  }

  function FilterThreads(scraps: map<Id, Scrap>, v: Id): (r: map<Id, Scrap>)
    ensures r.Keys == scraps.Keys
    ensures forall k :: k in scraps ==> r[k] == scraps[k].(threads := Pull(scraps[k].threads, v))
  {
    map k | k in scraps :: scraps[k].(threads := Pull(scraps[k].threads, v))
  }

  /**
   other/handler.js `handleMongoFilter`. Afterwards no record of the collection
   holds `v` in that array; a record that did not hold it is untouched, and a
   record that did keeps its other entries with their counts and order.
   */
  function HandleMongoFilter(db: Db, f: Filter, v: Id): (r: Db)
    ensures r.authors.Keys == db.authors.Keys && r.books.Keys == db.books.Keys && r.scraps.Keys == db.scraps.Keys
    ensures r.actions == db.actions
    ensures r.confirmationTokens == db.confirmationTokens && r.passwordTokens == db.passwordTokens
    ensures Cleared(r, f, v)
    ensures f.AuthorFilter? ==> r.books == db.books && r.scraps == db.scraps
    ensures f.AuthorFilter? ==> forall k :: k in db.authors ==>
      && (v !in AuthorArrayOf(db.authors[k], f.field) ==> r.authors[k] == db.authors[k])
      && (forall g :: g != f.field ==> AuthorArrayOf(r.authors[k], g) == AuthorArrayOf(db.authors[k], g))
      && (forall x :: x != v ==> Count(AuthorArrayOf(r.authors[k], f.field), x) == Count(AuthorArrayOf(db.authors[k], f.field), x))
      && IsSubsequence(AuthorArrayOf(r.authors[k], f.field), AuthorArrayOf(db.authors[k], f.field))
    ensures f.BookLikes? ==> r.authors == db.authors && r.scraps == db.scraps
    ensures f.BookLikes? ==> forall k :: k in db.books ==>
      && (v !in db.books[k].likes ==> r.books[k] == db.books[k])
      && r.books[k] == db.books[k].(likes := r.books[k].likes)
      && (forall x :: x != v ==> Count(r.books[k].likes, x) == Count(db.books[k].likes, x))
      && IsSubsequence(r.books[k].likes, db.books[k].likes)
    ensures f.ScrapThreads? ==> r.authors == db.authors && r.books == db.books
    ensures f.ScrapThreads? ==> forall k :: k in db.scraps ==>
      && (v !in db.scraps[k].threads ==> r.scraps[k] == db.scraps[k])
      && r.scraps[k] == db.scraps[k].(threads := r.scraps[k].threads)
      && (forall x :: x != v ==> Count(r.scraps[k].threads, x) == Count(db.scraps[k].threads, x))
      && IsSubsequence(r.scraps[k].threads, db.scraps[k].threads)
  {
    match f
    case AuthorFilter(g) => db.(authors := FilterAuthors(db.authors, g, v))
    case BookLikes => db.(books := FilterLikes(db.books, v))
    case ScrapThreads => db.(scraps := FilterThreads(db.scraps, v))
  }

  /** Running the same filter twice is running it once. */
  lemma HandleMongoFilterIdempotent(db: Db, f: Filter, v: Id)
    ensures HandleMongoFilter(HandleMongoFilter(db, f, v), f, v) == HandleMongoFilter(db, f, v)
  {
    match f
    case AuthorFilter(g) =>
      var once := FilterAuthors(db.authors, g, v);
      assert FilterAuthors(once, g, v) == once;
    case BookLikes =>
      var once := FilterLikes(db.books, v);
      assert FilterLikes(once, v) == once;
    case ScrapThreads =>
      var once := FilterThreads(db.scraps, v);
      assert FilterThreads(once, v) == once;
  }

  /** A filter on a collection where nothing holds the value changes nothing. */
  lemma HandleMongoFilterNoop(db: Db, f: Filter, v: Id)
    requires Cleared(db, f, v)
    ensures HandleMongoFilter(db, f, v) == db
  {
    var r := HandleMongoFilter(db, f, v);
    match f
    case AuthorFilter(g) =>
      assert r.authors == db.authors;
    case BookLikes =>
      assert r.books == db.books;
    case ScrapThreads =>
      assert r.scraps == db.scraps;
  }

  /** A filter only ever removes entries, so an array already clear of `v` stays clear, whatever was filtered. */
  lemma FilterKeepsCleared(db: Db, f: Filter, w: Id, g: Filter, v: Id)
    requires Cleared(db, g, v)
    ensures Cleared(HandleMongoFilter(db, f, w), g, v)
  {
    var r := HandleMongoFilter(db, f, w);
    match g
    case AuthorFilter(h) =>
      forall k | k in r.authors
        ensures v !in AuthorArrayOf(r.authors[k], h)
      {
        if f.AuthorFilter? && f.field == h {
          assert AuthorArrayOf(r.authors[k], h) == Pull(AuthorArrayOf(db.authors[k], h), w);
        }
      }
    case BookLikes =>
      forall k | k in r.books
        ensures v !in r.books[k].likes
      {
      }
    case ScrapThreads =>
      forall k | k in r.scraps
        ensures v !in r.scraps[k].threads
      {
      }
  }
}

=== FILE: cascade.dfy ===
/**
 The deep deletes of other/handler.js: `deepDeleteScrap`, `deepDeleteBook`
 and `deepDeleteAuthor`. Each removes a document together with every
 reference to it that the cascade knows about. The `Promise.all` fan-outs are
 applied one call after another in the order the ids are listed; every call
 runs, the first failure is what the cascade reports, and a failed phase
 stops the cascade before its next phase.
 */
module Cascade {
  import opened Lists
  import opened Records
  import opened Bulk
  import opened Actions

  /** Nothing was created: every collection lost documents at most, and surviving actions are as they were. */
  ghost predicate Shrinks(db: Db, r: Db) {
    && r.authors.Keys <= db.authors.Keys
    && r.books.Keys <= db.books.Keys
    && r.scraps.Keys <= db.scraps.Keys
    && r.actions.Keys <= db.actions.Keys
    && (forall x :: x in r.actions ==> r.actions[x] == db.actions[x])
  }

  lemma ShrinksTransitive(a: Db, b: Db, c: Db)
    requires Shrinks(a, b) && Shrinks(b, c)
    ensures Shrinks(a, c)
  {
  }

  /** The actions one `Action.find` returns: those with `a` as sender or target author. */
  function ActionsOfAuthor(db: Db, a: Id): set<Id> {
    set x | x in db.actions && Involves(db.actions[x], a)
  }

  /** The actions with `b` as sender or target book. */
  function ActionsOfBook(db: Db, b: Id): set<Id> {
    set x | x in db.actions && (db.actions[x].senderBook == b || db.actions[x].targetBook == b)
  }

  /** The actions with `s` as sender or target scrap. */
  function ActionsOfScrap(db: Db, s: Id): set<Id> {
    set x | x in db.actions && (db.actions[x].senderScrap == s || db.actions[x].targetScrap == s)
  }

  // ---------------------------------------------------------------- deepDeleteScrap

  /** One book after the cover update: its cover is blanked if it shows one of the scrap's photos. */
  function Uncover(b: Book, sc: Scrap): (r: Book)
    ensures r == b.(cover := r.cover)
    ensures r.cover == sc.prograph || r.cover == sc.retrograph ==> r.cover == ""
    ensures b.cover != sc.prograph && b.cover != sc.retrograph ==> r == b
  {
    if b.cover == sc.prograph || b.cover == sc.retrograph then b.(cover := "") else b
  }

  /** The `Book.updateMany` that blanks every cover showing one of the scrap's two photos. */
  function ClearCovers(books: map<Id, Book>, sc: Scrap): (r: map<Id, Book>)
    ensures r.Keys == books.Keys
    ensures forall k :: k in books ==> r[k] == Uncover(books[k], sc)
  {
    map k | k in books :: Uncover(books[k], sc)
  }

  /** The scrap's author, with the scrap's photos taken off the profile and the scrap out of the library. */
  function Unpicture(a: Author, sc: Scrap, s: Id): (r: Author)
    ensures r == a.(headshot := r.headshot, cover := r.cover, scraps := r.scraps)
    ensures s !in r.scraps && IsSubsequence(r.scraps, a.scraps)
    ensures r.headshot == if a.headshot == sc.retrograph then "" else a.headshot
    ensures r.cover == if a.cover == sc.prograph then "" else a.cover
  {
    a.(headshot := if a.headshot == sc.retrograph then "" else a.headshot,
       cover := if a.cover == sc.prograph then "" else a.cover,
       scraps := Pull(a.scraps, s))
  }

  /** Every id of `ids` has a Scrap document. */
  predicate Resolves(ids: seq<Id>, scraps: map<Id, Scrap>) {
    forall i :: 0 <= i < |ids| ==> ids[i] in scraps
  }

  /**
   The saves of `deepDeleteScrap`: covers showing the scrap's photos are
   blanked, its book drops it, and its author drops it and the photos.
   */
  function UnlinkScrap(db: Db, s: Id, sc: Scrap): (r: Db)
    ensures r == db.(books := r.books, authors := r.authors)
    ensures r.books.Keys == db.books.Keys && r.authors.Keys == db.authors.Keys
    ensures forall k :: k in db.books ==>
      r.books[k] == if k == sc.book then Uncover(db.books[k], sc).(scraps := Pull(db.books[k].scraps, s)) else Uncover(db.books[k], sc)
    ensures forall k :: k in db.authors ==>
      r.authors[k] == if k == sc.author then Unpicture(db.authors[k], sc, s) else db.authors[k]
  {
    db.(books := map k | k in db.books ::
          if k == sc.book then Uncover(db.books[k], sc).(scraps := Pull(db.books[k].scraps, s)) else Uncover(db.books[k], sc),
        authors := map k | k in db.authors :: if k == sc.author then Unpicture(db.authors[k], sc, s) else db.authors[k])
  }

  /**
   other/handler.js `deepDeleteScrap`, with the author and book lookups
   awaited. An author or book that does not resolve is skipped. After both
   saves, `getCoordinates` reads each scrap left in the author's library; an
   id there with no document fails with a TypeError before the scrap itself
   is deleted.
   */
  function DeepDeleteScrap(db: Db, s: Id): (r: Update<Db>)
    ensures s !in db.scraps ==> r == Update(db, Err(ScrapMissing))
    ensures s in db.scraps ==>
      && Shrinks(db, r.store)
      && r.outcome == (if db.scraps[s].author in db.authors && !Resolves(Pull(db.authors[db.scraps[s].author].scraps, s), db.scraps)
                       then Err(TypeError) else Ok)
      && r.store.scraps == (if r.outcome == Ok then db.scraps - {s} else db.scraps)
      && r.store.authors.Keys == db.authors.Keys
      && r.store.books.Keys == db.books.Keys
      && r.store.confirmationTokens == db.confirmationTokens
      && r.store.passwordTokens == db.passwordTokens
  {
    if s !in db.scraps then Update(db, Err(ScrapMissing))
    else
      var sc := db.scraps[s];
      var db1 := DeleteActions(db, ActionsOfScrap(db, s));
      var db2 := UnlinkScrap(db1, s, sc);
      if sc.author in db2.authors && !Resolves(db2.authors[sc.author].scraps, db2.scraps) then Update(db2, Err(TypeError))
      else Update(db2.(scraps := db2.scraps - {s}), Ok)
  }

  /**
   What `deepDeleteScrap` leaves behind whichever way it ends: no action
   names the scrap, its book and its author no longer list it, the author's
   profile no longer shows its photos, and no book cover does. On success the
   scrap document is gone.
   */
  lemma DeepDeleteScrapEffects(db: Db, s: Id)
    requires s in db.scraps
    ensures var r := DeepDeleteScrap(db, s);
            var sc := db.scraps[s];
            && (r.outcome == Ok ==> s !in r.store.scraps)
            && (forall x :: x in r.store.actions ==> r.store.actions[x].senderScrap != s && r.store.actions[x].targetScrap != s)
            && (sc.book in r.store.books ==> s !in r.store.books[sc.book].scraps)
            && (forall k :: k in r.store.books && k != sc.book ==> r.store.books[k].scraps == db.books[k].scraps)
            && (forall k :: k in r.store.books ==> (r.store.books[k].cover == sc.prograph || r.store.books[k].cover == sc.retrograph) ==> r.store.books[k].cover == "")
            && (sc.author in r.store.authors ==>
                  && s !in r.store.authors[sc.author].scraps
                  && (r.store.authors[sc.author].headshot == sc.retrograph ==> sc.retrograph == "")
                  && (r.store.authors[sc.author].cover == sc.prograph ==> sc.prograph == ""))
  {
    var sc := db.scraps[s];
    var db1 := DeleteActions(db, ActionsOfScrap(db, s));
    var db2 := UnlinkScrap(db1, s, sc);
    UnlinkScrapEffects(db1, s, sc);
    var r := DeepDeleteScrap(db, s);
    assert r.store.books == db2.books && r.store.authors == db2.authors && r.store.actions == db2.actions;
    assert db2.actions == db.actions - ActionsOfScrap(db, s);
    assert db1.books == db.books;
  }

  /** The saves leave no cover showing the scrap's photos and no list of its book or author holding it. */
  lemma UnlinkScrapEffects(db: Db, s: Id, sc: Scrap)
    ensures var r := UnlinkScrap(db, s, sc);
            && (sc.book in r.books ==> s !in r.books[sc.book].scraps)
            && (forall k :: k in r.books && k != sc.book ==> r.books[k].scraps == db.books[k].scraps)
            && (forall k :: k in r.books ==> (r.books[k].cover == sc.prograph || r.books[k].cover == sc.retrograph) ==> r.books[k].cover == "")
            && (sc.author in r.authors ==>
                  && s !in r.authors[sc.author].scraps
                  && r.authors[sc.author].scraps == Pull(db.authors[sc.author].scraps, s)
                  && (r.authors[sc.author].headshot == sc.retrograph ==> sc.retrograph == "")
                  && (r.authors[sc.author].cover == sc.prograph ==> sc.prograph == ""))
  {
    var r := UnlinkScrap(db, s, sc);
    forall k | k in r.books
      ensures (r.books[k].cover == sc.prograph || r.books[k].cover == sc.retrograph) ==> r.books[k].cover == ""
    {
      assert r.books[k].cover == Uncover(db.books[k], sc).cover;
    }
  }

  /**
   other/handler.js `deepDeleteScrap` as written: `Author.findById` and
   `Book.findById` are not awaited, and neither are the queries of the
   `deepDeleteAction` calls, so no action is deleted. The headshot and cover
   tests read a field of a query object and never match, the
   `Book.updateMany` on covers does run, and `bookModel.scraps.pull` then
   throws on an undefined field: the scrap, its book entry and its author
   entry all survive.
   */
  function DeepDeleteScrapAsWritten(db: Db, s: Id): (r: Update<Db>)
    ensures s !in db.scraps ==> r == Update(db, Err(ScrapMissing))
    ensures s in db.scraps ==>
      && r.outcome == Err(TypeError)
      && r.store == db.(books := r.store.books)
      && r.store.books.Keys == db.books.Keys
      && (forall k :: k in db.books ==> r.store.books[k] == db.books[k].(cover := r.store.books[k].cover))
  {
    if s !in db.scraps then Update(db, Err(ScrapMissing))
    else
      // the found actions all exist, so the fan-out reports success
      var acts := DeleteActionsAsWritten(db, ActionsOfScrap(db, s));
      Update(acts.store.(books := ClearCovers(acts.store.books, db.scraps[s])), Err(TypeError))
  }

  /**
   As written the cascade fails on every existing scrap and leaves it listed
   in its book; awaited, the book drops it, and when the author's other
   scraps all resolve the scrap document is deleted.
   */
  lemma DeepDeleteScrapAsWrittenLeavesScrap(db: Db, s: Id)
    requires s in db.scraps && db.scraps[s].book in db.books && s in db.books[db.scraps[s].book].scraps
    ensures var r := DeepDeleteScrapAsWritten(db, s);
            r.outcome == Err(TypeError) && s in r.store.scraps && s in r.store.books[db.scraps[s].book].scraps
    ensures var r := DeepDeleteScrap(db, s);
            && s !in r.store.books[db.scraps[s].book].scraps
            && (db.scraps[s].author !in db.authors || Resolves(Pull(db.authors[db.scraps[s].author].scraps, s), db.scraps)
                ==> r.outcome == Ok && s !in r.store.scraps)
  {
    DeepDeleteScrapEffects(db, s);
  }

  // ---------------------------------------------------------------- deepDeleteBook

  /** How many of `ids`, from the front, resolve before the first one that does not. */
  function FirstMissing(scraps: map<Id, Scrap>, ids: seq<Id>): (n: nat)
    ensures n <= |ids|
    ensures forall i :: 0 <= i < n ==> ids[i] in scraps
    ensures n < |ids| ==> ids[n] !in scraps
  {
    if |ids| == 0 || ids[0] !in scraps then 0 else 1 + FirstMissing(scraps, ids[1..])
  }

  lemma {:induction false} FirstMissingKeys(a: map<Id, Scrap>, b: map<Id, Scrap>, ids: seq<Id>)
    requires a.Keys == b.Keys
    ensures FirstMissing(a, ids) == FirstMissing(b, ids)
  {
    if |ids| > 0 {
      FirstMissingKeys(a, b, ids[1..]);
    }
  }

  /**
   The loop of other/handler.js `deepDeleteBook` that sets `book` to "" on
   each listed scrap and saves it, stopping with an error at the first id
   that does not resolve; the scraps before it stay detached.
   */
  function DetachScraps(scraps: map<Id, Scrap>, ids: seq<Id>): (r: Update<map<Id, Scrap>>)
    ensures r.store.Keys == scraps.Keys
    ensures r.outcome == if FirstMissing(scraps, ids) == |ids| then Ok else Err(ScrapMissing)
    ensures forall k :: k in scraps ==>
      r.store[k] == if k in ids[..FirstMissing(scraps, ids)] then scraps[k].(book := "") else scraps[k]
    ensures forall k :: k in scraps ==> r.store[k] == scraps[k].(book := r.store[k].book)
    decreases |ids|
  {
    if |ids| == 0 then Update(scraps, Ok)
    else if ids[0] !in scraps then Update(scraps, Err(ScrapMissing))
    else
      var next := scraps[ids[0] := scraps[ids[0]].(book := "")];
      FirstMissingKeys(next, scraps, ids[1..]);
      assert ids[..FirstMissing(scraps, ids)] == [ids[0]] + ids[1..][..FirstMissing(scraps, ids[1..])];
      DetachScraps(next, ids[1..])
  }

  /** The three bulk filters of `deepDeleteBook`, in `deepDeleteBook`'s order: scrap threads, libraries, liked books. */
  function UnreferenceBook(db: Db, b: Id): (r: Db)
    ensures r == db.(authors := r.authors, scraps := r.scraps)
    ensures r.authors.Keys == db.authors.Keys && r.scraps.Keys == db.scraps.Keys
    ensures forall k :: k in r.scraps ==> b !in r.scraps[k].threads && r.scraps[k] == db.scraps[k].(threads := r.scraps[k].threads)
    ensures forall k :: k in r.authors ==> b !in r.authors[k].books && b !in r.authors[k].likedBooks
  {
    var db2 := HandleMongoFilter(db, ScrapThreads, b);
    var db3 := HandleMongoFilter(db2, AuthorFilter(BookList), b);
    var db4 := HandleMongoFilter(db3, AuthorFilter(LikedBookList), b);
    forall k | k in db4.authors
      ensures b !in db4.authors[k].books && b !in db4.authors[k].likedBooks
    {
      var r1 := PullAuthor(db.authors[k], BookList, b);
      assert db4.authors[k] == PullAuthor(r1, LikedBookList, b);
    }
    db4
  }

  /**
   The end of `deepDeleteBook`: the scrap loop, then, if it completed, the
   deletion of the book document.
   */
  function FinishBook(db: Db, b: Id, listed: seq<Id>): (r: Update<Db>)
    ensures r.store == db.(scraps := r.store.scraps, books := r.store.books)
    ensures r.store.scraps.Keys == db.scraps.Keys
    ensures forall k :: k in db.scraps ==> r.store.scraps[k] == db.scraps[k].(book := r.store.scraps[k].book)
    ensures r.outcome == (if forall i :: 0 <= i < |listed| ==> listed[i] in db.scraps then Ok else Err(ScrapMissing))
    ensures r.store.books == (if r.outcome == Ok then db.books - {b} else db.books)
    ensures r.outcome == Ok ==> forall i :: 0 <= i < |listed| ==> r.store.scraps[listed[i]].book == ""
  {
    var d := DetachScraps(db.scraps, listed);
    var db5 := db.(scraps := d.store);
    if d.outcome == Ok then
      assert listed[..FirstMissing(db.scraps, listed)] == listed;
      Update(db5.(books := db5.books - {b}), Ok)
    else
      Update(db5, d.outcome)
  }

  /**
   other/handler.js `deepDeleteBook`. The filters run before the scrap loop,
   so they have taken effect even when the loop stops at a missing scrap; the
   book itself is deleted only when the loop completes.
   */
  function DeepDeleteBook(db: Db, b: Id): (r: Update<Db>)
    ensures b !in db.books ==> r == Update(db, Err(BookMissing))
    ensures b in db.books ==>
      && Shrinks(db, r.store)
      && r.store.authors.Keys == db.authors.Keys
      && r.store.scraps.Keys == db.scraps.Keys
      && r.store.confirmationTokens == db.confirmationTokens
      && r.store.passwordTokens == db.passwordTokens
      && r.outcome == (if forall i :: 0 <= i < |db.books[b].scraps| ==> db.books[b].scraps[i] in db.scraps
                       then Ok else Err(ScrapMissing))
      && r.store.books == (if r.outcome == Ok then db.books - {b} else db.books)
  {
    if b !in db.books then Update(db, Err(BookMissing))
    else
      var db1 := DeleteActions(db, ActionsOfBook(db, b));
      var db4 := UnreferenceBook(db1, b);
      FinishBook(db4, b, db.books[b].scraps)
  }

  /**
   What `deepDeleteBook` leaves behind whichever way it ends: no action names
   the book, no scrap threads it, no author's library or liked books hold it;
   on success every scrap it listed belongs to no book and the book is gone.
   */
  lemma DeepDeleteBookEffects(db: Db, b: Id)
    requires b in db.books
    ensures var r := DeepDeleteBook(db, b);
            && (forall x :: x in r.store.actions ==> r.store.actions[x].senderBook != b && r.store.actions[x].targetBook != b)
            && (forall k :: k in r.store.scraps ==> b !in r.store.scraps[k].threads)
            && (forall k :: k in r.store.authors ==> b !in r.store.authors[k].books && b !in r.store.authors[k].likedBooks)
            && (r.outcome == Ok ==> b !in r.store.books)
            && (r.outcome == Ok ==> forall i :: 0 <= i < |db.books[b].scraps| ==> r.store.scraps[db.books[b].scraps[i]].book == "")
  {
    var db1 := DeleteActions(db, ActionsOfBook(db, b));
    var db4 := UnreferenceBook(db1, b);
    var r := FinishBook(db4, b, db.books[b].scraps);
    assert DeepDeleteBook(db, b) == r;
    assert r.store.actions == db.actions - ActionsOfBook(db, b);
    forall k | k in r.store.scraps
      ensures b !in r.store.scraps[k].threads
    {
      assert r.store.scraps[k].threads == db4.scraps[k].threads;
    }
  }

  /**
   other/handler.js `deepDeleteBook` as written: the `deepDeleteAction` calls
   over the actions naming the book execute nothing, so those actions stay;
   the rest of the cascade is as in `DeepDeleteBook`.
   */
  function DeepDeleteBookAsWritten(db: Db, b: Id): (r: Update<Db>)
    ensures b !in db.books ==> r == Update(db, Err(BookMissing))
    ensures b in db.books ==>
      && Shrinks(db, r.store)
      && r.store.actions == db.actions
      && r.store.authors.Keys == db.authors.Keys
      && r.store.scraps.Keys == db.scraps.Keys
      && r.store.confirmationTokens == db.confirmationTokens
      && r.store.passwordTokens == db.passwordTokens
      && r.outcome == (if Resolves(db.books[b].scraps, db.scraps) then Ok else Err(ScrapMissing))
      && r.store.books == (if r.outcome == Ok then db.books - {b} else db.books)
  {
    if b !in db.books then Update(db, Err(BookMissing))
    else
      var acts := DeleteActionsAsWritten(db, ActionsOfBook(db, b));
      FinishBook(UnreferenceBook(acts.store, b), b, db.books[b].scraps)
  }

  /** As written an action naming the book survives its deletion; with the queries executed it is gone. */
  lemma DeepDeleteBookAsWrittenKeepsActions(db: Db, b: Id, x: Id)
    requires b in db.books && x in db.actions && (db.actions[x].senderBook == b || db.actions[x].targetBook == b)
    ensures x in DeepDeleteBookAsWritten(db, b).store.actions
    ensures x !in DeepDeleteBook(db, b).store.actions
  {
    DeepDeleteBookEffects(db, b);
  }

  // ---------------------------------------------------------------- deepDeleteAuthor

  /** `deepDeleteScrap` over each listed scrap; every call runs and the first error is reported. */
  function DeleteScraps(db: Db, ids: seq<Id>): (r: Update<Db>)
    ensures Shrinks(db, r.store)
    ensures r.store.authors.Keys == db.authors.Keys && r.store.books.Keys == db.books.Keys
    ensures r.store.confirmationTokens == db.confirmationTokens && r.store.passwordTokens == db.passwordTokens
    ensures r.outcome == Ok ==> forall i :: 0 <= i < |ids| ==> ids[i] !in r.store.scraps
    decreases |ids|
  {
    if |ids| == 0 then Update(db, Ok)
    else
      var first := DeepDeleteScrap(db, ids[0]);
      var rest := DeleteScraps(first.store, ids[1..]);
      var outcome := if first.outcome.Err? then first.outcome else rest.outcome;
      ShrinksTransitive(db, first.store, rest.store);
      assert outcome == Ok ==> ids[0] !in rest.store.scraps by {
        if outcome == Ok {
          assert ids[0] !in first.store.scraps;
        }
      }
      assert forall i :: 1 <= i < |ids| ==> ids[i] == ids[1..][i - 1];
      Update(rest.store, outcome)
  }

  /** `deepDeleteBook` over each listed book; every call runs and the first error is reported. */
  function DeleteBooks(db: Db, ids: seq<Id>): (r: Update<Db>)
    ensures Shrinks(db, r.store)
    ensures r.store.authors.Keys == db.authors.Keys
    ensures r.store.confirmationTokens == db.confirmationTokens && r.store.passwordTokens == db.passwordTokens
    ensures r.outcome == Ok ==> forall i :: 0 <= i < |ids| ==> ids[i] !in r.store.books
    decreases |ids|
  {
    if |ids| == 0 then Update(db, Ok)
    else
      var first := DeepDeleteBook(db, ids[0]);
      var rest := DeleteBooks(first.store, ids[1..]);
      var outcome := if first.outcome.Err? then first.outcome else rest.outcome;
      ShrinksTransitive(db, first.store, rest.store);
      assert outcome == Ok ==> ids[0] !in rest.store.books by {
        if outcome == Ok {
          assert ids[0] !in first.store.books;
        }
      }
      assert forall i :: 1 <= i < |ids| ==> ids[i] == ids[1..][i - 1];
      Update(rest.store, outcome)
  }

  /** The three Author filters of `deepDeleteAuthor`: friends, incoming and outgoing requests. */
  function Unfriend(db: Db, a: Id): (r: Db)
    ensures r == db.(authors := r.authors)
    ensures r.authors.Keys == db.authors.Keys
    ensures forall k :: k in r.authors ==>
      && a !in r.authors[k].friends
      && a !in r.authors[k].incomingFriendRequests
      && a !in r.authors[k].outgoingFriendRequests
  {
    var db1 := HandleMongoFilter(db, AuthorFilter(FriendList), a);
    var db2 := HandleMongoFilter(db1, AuthorFilter(IncomingList), a);
    var db3 := HandleMongoFilter(db2, AuthorFilter(OutgoingList), a);
    forall k | k in db3.authors
      ensures a !in db3.authors[k].friends && a !in db3.authors[k].incomingFriendRequests && a !in db3.authors[k].outgoingFriendRequests
    {
      Unfriended(db.authors[k], a);
    }
    db3
  }

  /** The three pulls on one author leave no friendship or request naming `v`. */
  lemma Unfriended(x: Author, v: Id)
    ensures var r := PullAuthor(PullAuthor(PullAuthor(x, FriendList, v), IncomingList, v), OutgoingList, v);
      v !in r.friends && v !in r.incomingFriendRequests && v !in r.outgoingFriendRequests
  {
    var r1 := PullAuthor(x, FriendList, v);
    var r2 := PullAuthor(r1, IncomingList, v);
    var r3 := PullAuthor(r2, OutgoingList, v);
    assert r3.friends == r2.friends == r1.friends;
    assert r3.incomingFriendRequests == r2.incomingFriendRequests;
  }

  /** The bulk filters of `deepDeleteAuthor`, in `deepDeleteAuthor`'s order: the three Author filters, then book likes. */
  function UnreferenceAuthor(db: Db, a: Id): (r: Db)
    ensures r == db.(authors := r.authors, books := r.books)
    ensures r.authors.Keys == db.authors.Keys && r.books.Keys == db.books.Keys
    ensures forall k :: k in r.authors ==>
      && a !in r.authors[k].friends
      && a !in r.authors[k].incomingFriendRequests
      && a !in r.authors[k].outgoingFriendRequests
    ensures forall k :: k in r.books ==> a !in r.books[k].likes
  {
    var db3 := Unfriend(db, a);
    var db4 := HandleMongoFilter(db3, BookLikes, a);
    assert db4.authors == db3.authors;
    db4
  }

  /** `ConfirmationToken.deleteMany({author})` and `PasswordToken.deleteMany({email})`. */
  function DropTokens(db: Db, a: Id, email: string): (r: Db)
    ensures r == db.(confirmationTokens := r.confirmationTokens, passwordTokens := r.passwordTokens)
    ensures forall t :: t in r.confirmationTokens <==> t in db.confirmationTokens && db.confirmationTokens[t].author != a
    ensures forall t :: t in r.passwordTokens <==> t in db.passwordTokens && db.passwordTokens[t].email != email
    ensures forall t :: t in r.confirmationTokens ==> r.confirmationTokens[t] == db.confirmationTokens[t]
    ensures forall t :: t in r.passwordTokens ==> r.passwordTokens[t] == db.passwordTokens[t]
  {
    db.(confirmationTokens := map t | t in db.confirmationTokens && db.confirmationTokens[t].author != a :: db.confirmationTokens[t],
        passwordTokens := map t | t in db.passwordTokens && db.passwordTokens[t].email != email :: db.passwordTokens[t])
  }

  /** The last phases of `deepDeleteAuthor`: the bulk filters, the tokens, the author document. */
  function Unregister(db: Db, a: Id, email: string): (r: Db)
    ensures r.actions == db.actions && r.scraps == db.scraps && r.books.Keys == db.books.Keys
    ensures r.authors.Keys == db.authors.Keys - {a}
    ensures forall k :: k in r.authors ==>
      && a !in r.authors[k].friends
      && a !in r.authors[k].incomingFriendRequests
      && a !in r.authors[k].outgoingFriendRequests
    ensures forall k :: k in r.books ==> a !in r.books[k].likes
    ensures forall t :: t in r.confirmationTokens ==> r.confirmationTokens[t].author != a
    ensures forall t :: t in r.passwordTokens ==> r.passwordTokens[t].email != email
  {
    var db4 := UnreferenceAuthor(db, a);
    var db5 := DropTokens(db4, a, email);
    db5.(authors := db5.authors - {a})
  }

  /**
   other/handler.js `deepDeleteAuthor`: the author's actions, then their
   scraps, then their books, then the bulk filters, then the tokens, then the
   author document.
   */
  function DeepDeleteAuthor(db: Db, a: Id): (r: Update<Db>)
    ensures a !in db.authors ==> r == Update(db, Err(AuthorMissing))
    ensures a in db.authors ==> Shrinks(db, r.store)
    ensures a in db.authors && r.outcome.Err? ==> a in r.store.authors
    ensures a in db.authors && r.outcome == Ok ==> a !in r.store.authors && r.store.authors.Keys == db.authors.Keys - {a}
  {
    if a !in db.authors then Update(db, Err(AuthorMissing))
    else
      var author := db.authors[a];
      var db1 := DeleteActions(db, ActionsOfAuthor(db, a));
      assert Shrinks(db, db1);
      var scraps := DeleteScraps(db1, author.scraps);
      ShrinksTransitive(db, db1, scraps.store);
      if scraps.outcome.Err? then scraps
      else
        var books := DeleteBooks(scraps.store, author.books);
        ShrinksTransitive(db, scraps.store, books.store);
        if books.outcome.Err? then books
        else
          Update(Unregister(books.store, a, author.email), Ok)
  }

  /**
   What a successful `deepDeleteAuthor` leaves behind: the author and every
   scrap and book they listed are gone; no author's friends or pending
   requests and no book's likes hold the author; no action names them; no
   confirmation token points at them and no password token carries their
   email.
   */
  lemma DeepDeleteAuthorEffects(db: Db, a: Id)
    requires a in db.authors
    ensures var r := DeepDeleteAuthor(db, a);
            var author := db.authors[a];
            r.outcome == Ok ==>
            && a !in r.store.authors
            && (forall k :: k in r.store.authors ==>
                  && a !in r.store.authors[k].friends
                  && a !in r.store.authors[k].incomingFriendRequests
                  && a !in r.store.authors[k].outgoingFriendRequests)
            && (forall k :: k in r.store.books ==> a !in r.store.books[k].likes)
            && (forall x :: x in r.store.actions ==> !Involves(r.store.actions[x], a))
            && (forall t :: t in r.store.confirmationTokens ==> r.store.confirmationTokens[t].author != a)
            && (forall t :: t in r.store.passwordTokens ==> r.store.passwordTokens[t].email != author.email)
            && (forall i :: 0 <= i < |author.scraps| ==> author.scraps[i] !in r.store.scraps)
            && (forall i :: 0 <= i < |author.books| ==> author.books[i] !in r.store.books)
  {
    if DeepDeleteAuthor(db, a).outcome == Ok {
      var author := db.authors[a];
      var db1 := DeleteActions(db, ActionsOfAuthor(db, a));
      var scraps := DeleteScraps(db1, author.scraps);
      var books := DeleteBooks(scraps.store, author.books);
      assert scraps.outcome == Ok && books.outcome == Ok;
      ShrinksTransitive(db1, scraps.store, books.store);
      assert DeepDeleteAuthor(db, a).store == Unregister(books.store, a, author.email);
    }
  }

  /** No id occurs twice. */
  predicate Distinct(ids: seq<Id>) {
    forall i, j :: 0 <= i < j < |ids| ==> ids[i] != ids[j]
  }

  /** Every id of `ids` is a scrap on record whose author is `a`. */
  predicate OwnScraps(db: Db, a: Id, ids: seq<Id>) {
    forall x :: x in ids ==> x in db.scraps && db.scraps[x].author == a
  }

  /** Every book of `bs` is on record and lists only scraps on record that name it as their book. */
  predicate BooksHoldScraps(db: Db, bs: seq<Id>) {
    forall i :: 0 <= i < |bs| ==>
      && bs[i] in db.books
      && (forall x :: x in db.books[bs[i]].scraps ==> x in db.scraps && db.scraps[x].book == bs[i])
  }

  /**
   With the library of `a` starting at its own scrap `ids[0]`, deleting that
   scrap succeeds, leaves the rest of the library, and keeps every book of
   `bs` holding scraps on record.
   */
  lemma DeleteOwnScrapHead(db: Db, a: Id, ids: seq<Id>, bs: seq<Id>)
    requires a in db.authors && db.authors[a].scraps == ids && |ids| > 0
    requires Distinct(ids) && OwnScraps(db, a, ids) && BooksHoldScraps(db, bs)
    ensures var r := DeepDeleteScrap(db, ids[0]);
            && r.outcome == Ok
            && a in r.store.authors && r.store.authors[a].scraps == ids[1..]
            && OwnScraps(r.store, a, ids[1..])
            && BooksHoldScraps(r.store, bs)
  {
    var s := ids[0];
    var sc := db.scraps[s];
    assert ids == [s] + ids[1..];
    assert s !in ids[1..] by {
      forall j | 0 <= j < |ids| - 1 ensures ids[1..][j] != s {
        assert ids[1..][j] == ids[j + 1];
      }
    }
    PullHead(s, ids[1..], s);
    assert Pull(ids, s) == ids[1..];
    assert Resolves(Pull(ids, s), db.scraps);
    var db1 := DeleteActions(db, ActionsOfScrap(db, s));
    var db2 := UnlinkScrap(db1, s, sc);
    var r := DeepDeleteScrap(db, s);
    assert r.store == db2.(scraps := db2.scraps - {s});
    assert r.store.authors[a] == Unpicture(db1.authors[a], sc, s);
    forall i | 0 <= i < |bs|
      ensures bs[i] in r.store.books
      ensures forall x :: x in r.store.books[bs[i]].scraps ==> x in r.store.scraps && r.store.scraps[x].book == bs[i]
    {
      var b := bs[i];
      var before := db.books[b].scraps;
      assert r.store.books[b].scraps == if b == sc.book then Pull(before, s) else before;
      forall x | x in r.store.books[b].scraps
        ensures x in r.store.scraps && r.store.scraps[x].book == b
      {
        assert x in before && x != s;
      }
    }
  }

  /** The scrap phase of `deepDeleteAuthor` succeeds on an author's own distinct scraps. */
  lemma {:induction false} DeleteOwnScraps(db: Db, a: Id, ids: seq<Id>, bs: seq<Id>)
    requires a in db.authors && db.authors[a].scraps == ids
    requires Distinct(ids) && OwnScraps(db, a, ids) && BooksHoldScraps(db, bs)
    ensures var r := DeleteScraps(db, ids);
            r.outcome == Ok && BooksHoldScraps(r.store, bs)
    decreases |ids|
  {
    if |ids| > 0 {
      DeleteOwnScrapHead(db, a, ids, bs);
      var first := DeepDeleteScrap(db, ids[0]);
      assert Distinct(ids[1..]) by {
        forall i, j | 0 <= i < j < |ids| - 1 ensures ids[1..][i] != ids[1..][j] {
          assert ids[1..][i] == ids[i + 1] && ids[1..][j] == ids[j + 1];
        }
      }
      DeleteOwnScraps(first.store, a, ids[1..], bs);
    }
  }

  /** The book phase of `deepDeleteAuthor` succeeds on distinct books whose scraps are all on record. */
  lemma {:induction false} DeleteResolvedBooks(db: Db, bs: seq<Id>)
    requires Distinct(bs)
    requires forall i :: 0 <= i < |bs| ==> bs[i] in db.books && Resolves(db.books[bs[i]].scraps, db.scraps)
    ensures DeleteBooks(db, bs).outcome == Ok
    decreases |bs|
  {
    if |bs| > 0 {
      var first := DeepDeleteBook(db, bs[0]);
      assert first.outcome == Ok;
      forall i | 0 <= i < |bs| - 1
        ensures bs[1..][i] in first.store.books && Resolves(first.store.books[bs[1..][i]].scraps, first.store.scraps)
      {
        assert bs[1..][i] == bs[i + 1] != bs[0];
      }
      assert Distinct(bs[1..]) by {
        forall i, j | 0 <= i < j < |bs| - 1 ensures bs[1..][i] != bs[1..][j] {
          assert bs[1..][i] == bs[i + 1] && bs[1..][j] == bs[j + 1];
        }
      }
      DeleteResolvedBooks(first.store, bs[1..]);
    }
  }

  /**
   When `deepDeleteAuthor` succeeds: the author lists distinct scraps of
   their own, all on record, and distinct books on record, each listing
   only scraps on record that name it as their book.
   */
  lemma DeepDeleteAuthorSucceeds(db: Db, a: Id)
    requires a in db.authors
    requires Distinct(db.authors[a].scraps) && OwnScraps(db, a, db.authors[a].scraps)
    requires Distinct(db.authors[a].books) && BooksHoldScraps(db, db.authors[a].books)
    ensures DeepDeleteAuthor(db, a).outcome == Ok && a !in DeepDeleteAuthor(db, a).store.authors
  {
    var author := db.authors[a];
    var db1 := DeleteActions(db, ActionsOfAuthor(db, a));
    assert db1.books == db.books && db1.scraps == db.scraps && db1.authors[a].scraps == author.scraps;
    DeleteOwnScraps(db1, a, author.scraps, author.books);
    var scraps := DeleteScraps(db1, author.scraps);
    DeleteResolvedBooks(scraps.store, author.books);
  }

  /** A listed id with no document stops the scrap phase with an error. */
  lemma {:induction false} DeleteScrapsMissing(db: Db, ids: seq<Id>, i: nat)
    requires i < |ids| && ids[i] !in db.scraps
    ensures DeleteScraps(db, ids).outcome.Err?
    decreases |ids|
  {
    var first := DeepDeleteScrap(db, ids[0]);
    if i > 0 && first.outcome == Ok {
      assert ids[1..][i - 1] == ids[i];
      DeleteScrapsMissing(first.store, ids[1..], i - 1);
    }
  }

  /** A listed id with no document stops the book phase with an error. */
  lemma {:induction false} DeleteBooksMissing(db: Db, ids: seq<Id>, i: nat)
    requires i < |ids| && ids[i] !in db.books
    ensures DeleteBooks(db, ids).outcome.Err?
    decreases |ids|
  {
    var first := DeepDeleteBook(db, ids[0]);
    if i > 0 && first.outcome == Ok {
      assert ids[1..][i - 1] == ids[i];
      DeleteBooksMissing(first.store, ids[1..], i - 1);
    }
  }

  /** An author who lists a scrap or a book with no document cannot be deleted; they stay on record. */
  lemma DeepDeleteAuthorNeedsRecords(db: Db, a: Id)
    requires a in db.authors
    ensures (exists i :: 0 <= i < |db.authors[a].scraps| && db.authors[a].scraps[i] !in db.scraps) ==>
      DeepDeleteAuthor(db, a).outcome.Err? && a in DeepDeleteAuthor(db, a).store.authors
    ensures (exists i :: 0 <= i < |db.authors[a].books| && db.authors[a].books[i] !in db.books) ==>
      DeepDeleteAuthor(db, a).outcome.Err? && a in DeepDeleteAuthor(db, a).store.authors
  {
    var author := db.authors[a];
    var db1 := DeleteActions(db, ActionsOfAuthor(db, a));
    var scraps := DeleteScraps(db1, author.scraps);
    if i :| 0 <= i < |author.scraps| && author.scraps[i] !in db.scraps {
      DeleteScrapsMissing(db1, author.scraps, i);
    }
    if i :| 0 <= i < |author.books| && author.books[i] !in db.books {
      if scraps.outcome == Ok {
        DeleteBooksMissing(scraps.store, author.books, i);
      }
    }
  }

  /** `deepDeleteScrap` as written over each listed scrap; every call runs and the first error is reported. */
  function DeleteScrapsAsWritten(db: Db, ids: seq<Id>): (r: Update<Db>)
    ensures r.store == db.(books := r.store.books)
    ensures r.store.books.Keys == db.books.Keys
    ensures forall k :: k in db.books ==> r.store.books[k] == db.books[k].(cover := r.store.books[k].cover)
    ensures r.outcome == Ok <==> |ids| == 0
    ensures (exists i :: 0 <= i < |ids| && ids[i] in db.scraps) ==> r.outcome.Err?
    ensures Resolves(ids, db.scraps) && |ids| > 0 ==> r.outcome == Err(TypeError)
    decreases |ids|
  {
    if |ids| == 0 then Update(db, Ok)
    else
      var first := DeepDeleteScrapAsWritten(db, ids[0]);
      var rest := DeleteScrapsAsWritten(first.store, ids[1..]);
      Update(rest.store, if first.outcome.Err? then first.outcome else rest.outcome)
  }

  /** `deepDeleteBook` as written over each listed book; every call runs and the first error is reported. */
  function DeleteBooksAsWritten(db: Db, ids: seq<Id>): (r: Update<Db>)
    ensures Shrinks(db, r.store)
    ensures r.store.actions == db.actions
    ensures r.store.authors.Keys == db.authors.Keys
    ensures r.store.confirmationTokens == db.confirmationTokens && r.store.passwordTokens == db.passwordTokens
    ensures r.outcome == Ok ==> forall i :: 0 <= i < |ids| ==> ids[i] !in r.store.books
    decreases |ids|
  {
    if |ids| == 0 then Update(db, Ok)
    else
      var first := DeepDeleteBookAsWritten(db, ids[0]);
      var rest := DeleteBooksAsWritten(first.store, ids[1..]);
      var outcome := if first.outcome.Err? then first.outcome else rest.outcome;
      ShrinksTransitive(db, first.store, rest.store);
      assert outcome == Ok ==> ids[0] !in rest.store.books by {
        if outcome == Ok {
          assert ids[0] !in first.store.books;
        }
      }
      assert forall i :: 1 <= i < |ids| ==> ids[i] == ids[1..][i - 1];
      Update(rest.store, outcome)
  }

  /**
   other/handler.js `deepDeleteAuthor` as written. The fan-out over the
   author's actions executes nothing (`DeleteActionsAsWritten`), and the one over
   their scraps rejects as soon as the author lists any scrap, since
   `deepDeleteScrap` as written fails on every id; the later phases are then
   never reached.
   */
  function DeepDeleteAuthorAsWritten(db: Db, a: Id): (r: Update<Db>)
    ensures a !in db.authors ==> r == Update(db, Err(AuthorMissing))
    ensures a in db.authors ==> r.store.actions == db.actions && Shrinks(db, r.store)
    ensures a in db.authors && |db.authors[a].scraps| > 0 ==>
      && r.outcome.Err?
      && r.store.authors == db.authors
      && r.store.scraps == db.scraps
    ensures a in db.authors && r.outcome == Ok ==> a !in r.store.authors
  {
    if a !in db.authors then Update(db, Err(AuthorMissing))
    else
      var author := db.authors[a];
      var acts := DeleteActionsAsWritten(db, ActionsOfAuthor(db, a));
      var scraps := DeleteScrapsAsWritten(acts.store, author.scraps);
      if scraps.outcome.Err? then scraps
      else
        var books := DeleteBooksAsWritten(scraps.store, author.books);
        if books.outcome.Err? then books
        else
          Update(Unregister(books.store, a, author.email), Ok)
  }

  /**
   An author listing one existing scrap of theirs and no books: as written the cascade
   reports a TypeError and the author and the scrap stay; with the lookups
   and queries awaited the author and the scrap are deleted.
   */
  lemma DeepDeleteAuthorAsWrittenKeepsAuthor(db: Db, a: Id, s: Id)
    requires a in db.authors && db.authors[a].scraps == [s] && db.authors[a].books == [] && s in db.scraps && db.scraps[s].author == a
    ensures var r := DeepDeleteAuthorAsWritten(db, a);
            r.outcome == Err(TypeError) && a in r.store.authors && s in r.store.scraps
    ensures var r := DeepDeleteAuthor(db, a);
            r.outcome == Ok && a !in r.store.authors && s !in r.store.scraps
  {
    assert Resolves([s], db.scraps);
    DeepDeleteAuthorOneScrap(db, a, s);
  }

  /** With everything awaited, deleting an author with one existing scrap and no books succeeds. */
  lemma DeepDeleteAuthorOneScrap(db: Db, a: Id, s: Id)
    requires a in db.authors && db.authors[a].scraps == [s] && db.authors[a].books == [] && s in db.scraps && db.scraps[s].author == a
    ensures var r := DeepDeleteAuthor(db, a);
            r.outcome == Ok && a !in r.store.authors && s !in r.store.scraps
  {
    var author := db.authors[a];
    var db1 := DeleteActions(db, ActionsOfAuthor(db, a));
    var scraps := DeleteScraps(db1, [s]);
    assert scraps.outcome == Ok && s !in scraps.store.scraps by {
      DeleteOwnScrap(db1, a, s);
    }
    assert DeleteBooks(scraps.store, author.books).outcome == Ok;
    assert DeepDeleteAuthor(db, a).outcome == Ok;
    DeepDeleteAuthorEffects(db, a);
  }

  /** Deleting the one scrap an author lists, when it is theirs, succeeds. */
  lemma DeleteOwnScrap(db: Db, a: Id, s: Id)
    requires a in db.authors && db.authors[a].scraps == [s] && s in db.scraps && db.scraps[s].author == a
    ensures var r := DeleteScraps(db, [s]);
            r.outcome == Ok && s !in r.store.scraps
  {
    var first := DeepDeleteScrap(db, s);
    assert Pull([s], s) == [];
    assert first.outcome == Ok;
    var rest := DeleteScraps(first.store, []);
    assert rest == Update(first.store, Ok);
    assert [s][0] == s && [s][1..] == [];
    assert DeleteScraps(db, [s]) == rest;
  }
}

=== FILE: friendship.dfy ===
/**
 The friend-request handlers of controllers/authorController.js as pure
 transitions on the Author collection. Each handler loads both documents,
 branches on the three relationship arrays, rewrites both documents with
 pull/push and saves them, and in its error branches saves a repaired state
 before reporting the error.
 */
module Friendship {
  import opened Lists
  import opened Records
  import Helpers
  import Actions

  type Authors = map<Id, Author>

  /** The three relationship arrays of an Author document. */
  datatype Rel = Friends | Incoming | Outgoing

  function Field(a: Author, f: Rel): seq<Id> {
    match f
    case Friends => a.friends
    case Incoming => a.incomingFriendRequests
    case Outgoing => a.outgoingFriendRequests
  }

  /** `t` and `s` hold every id other than `x` equally often. */
  ghost predicate SameBut(t: seq<Id>, s: seq<Id>, x: Id) {
    forall y :: y != x ==> Count(t, y) == Count(s, y)
  }

  /**
   `after` is `before` with only entries equal to `x` changed in the three
   relationship arrays, and every other field untouched.
   */
  ghost predicate Touches(before: Author, after: Author, x: Id) {
    && after == before.(friends := after.friends,
                        incomingFriendRequests := after.incomingFriendRequests,
                        outgoingFriendRequests := after.outgoingFriendRequests)
    && (forall f :: SameBut(Field(after, f), Field(before, f), x))
  }

  /** Replace array `f` of `a` with `s`. */
  function Edit(a: Author, f: Rel, s: seq<Id>): (a': Author)
    ensures Field(a', f) == s
    ensures forall g :: g != f ==> Field(a', g) == Field(a, g)
    ensures a' == a.(friends := a'.friends,
                     incomingFriendRequests := a'.incomingFriendRequests,
                     outgoingFriendRequests := a'.outgoingFriendRequests)
  {
    match f
    case Friends => a.(friends := s)
    case Incoming => a.(incomingFriendRequests := s)
    case Outgoing => a.(outgoingFriendRequests := s)
  }

  /** Mongoose `a.f.pull(x)`. */
  function PullFrom(a: Author, f: Rel, x: Id): (a': Author)
    ensures Touches(a, a', x)
    ensures x !in Field(a', f)
    ensures forall g :: g != f ==> Field(a', g) == Field(a, g)
  {
    Edit(a, f, Pull(Field(a, f), x))
  }

  /** Mongoose `a.f.push(x)`. */
  function PushOnto(a: Author, f: Rel, x: Id): (a': Author)
    ensures Touches(a, a', x)
    ensures Count(Field(a', f), x) == Count(Field(a, f), x) + 1
    ensures forall g :: g != f ==> Field(a', g) == Field(a, g)
  {
    Edit(a, f, Push(Field(a, f), x))
  }

  /** `a.f.pull(x)` followed by `a.f.push(x)`. */
  function RefreshIn(a: Author, f: Rel, x: Id): (a': Author)
    ensures Touches(a, a', x)
    ensures Count(Field(a', f), x) == 1
    ensures forall g :: g != f ==> Field(a', g) == Field(a, g)
  {
    Edit(a, f, Refresh(Field(a, f), x))
  }

  lemma TouchesTransitive(a: Author, b: Author, c: Author, x: Id)
    requires Touches(a, b, x) && Touches(b, c, x)
    ensures Touches(a, c, x)
  {
    forall f
      ensures SameBut(Field(c, f), Field(a, f), x)
    {
      assert SameBut(Field(b, f), Field(a, f), x);
      assert SameBut(Field(c, f), Field(b, f), x);
    }
  }

  /**
   Save the user's and the author's documents. The handlers save both at once;
   when the two ids coincide the model lets the author's save land last.
   */
  function SaveBoth(store: Authors, user: Id, u: Author, author: Id, a: Author): (s: Authors)
    requires user in store && author in store
    ensures s.Keys == store.Keys
    ensures s[author] == a
    ensures user != author ==> s[user] == u
    ensures forall x :: x in store && x != user && x != author ==> s[x] == store[x]
  {
    store[user := u][author := a]
  }

  /** Either side records the friendship: the condition every handler tests first. */
  predicate EitherFriend(store: Authors, user: Id, author: Id)
    requires user in store && author in store
  {
    author in store[user].friends || user in store[author].friends
  }

  /** Only the two records of the pair may change, each only in entries naming the other. */
  ghost predicate PairOnly(store: Authors, store': Authors, user: Id, author: Id) {
    && store'.Keys == store.Keys
    && (forall x :: x in store && x != user && x != author ==> store'[x] == store[x])
    && (user != author && user in store && author in store ==>
          Touches(store[user], store'[user], author) && Touches(store[author], store'[author], user))
  }

  /** Pull `x` from both pending arrays of `a`. */
  function ClearPending(a: Author, x: Id): (a': Author)
    ensures Touches(a, a', x)
    ensures x !in a'.incomingFriendRequests && x !in a'.outgoingFriendRequests
    ensures a'.friends == a.friends
  {
    var b := PullFrom(a, Outgoing, x);
    var c := PullFrom(b, Incoming, x);
    TouchesTransitive(a, b, c, x);
    c
  }

  /** The repaired state of a friend: no pending entry for `x`, and `x` exactly once among the friends. */
  function Befriended(a: Author, x: Id): (a': Author)
    ensures Touches(a, a', x)
    ensures x !in a'.incomingFriendRequests && x !in a'.outgoingFriendRequests
    ensures Count(a'.friends, x) == 1
  {
    var b := ClearPending(a, x);
    var c := RefreshIn(b, Friends, x);
    TouchesTransitive(a, b, c, x);
    c
  }

  /** Both documents repaired as friends of each other. */
  function RepairFriends(store: Authors, user: Id, author: Id): Authors
    requires user in store && author in store
  {
    SaveBoth(store, user, Befriended(store[user], author), author, Befriended(store[author], user))
  }

  /** Drop the user-to-author request from both sides. */
  function DropOutgoing(store: Authors, user: Id, author: Id): Authors
    requires user in store && author in store
  {
    SaveBoth(store, user, PullFrom(store[user], Outgoing, author),
             author, PullFrom(store[author], Incoming, user))
  }

  /** Drop the author-to-user request from both sides. */
  function DropIncoming(store: Authors, user: Id, author: Id): Authors
    requires user in store && author in store
  {
    SaveBoth(store, user, PullFrom(store[user], Incoming, author),
             author, PullFrom(store[author], Outgoing, user))
  }

  /** controllers/authorController.js `sendRequest`. */
  function SendRequest(store: Authors, user: Id, author: Id): (r: Update<Authors>)
    ensures user == author ==> r == Update(store, Err(SelfRequest))
    ensures user != author && user !in store ==> r == Update(store, Err(UserMissing))
    ensures user != author && user in store && author !in store ==> r == Update(store, Err(AuthorMissing))
    ensures PairOnly(store, r.store, user, author)
    ensures user != author && user in store && author in store && EitherFriend(store, user, author) ==>
      && r.outcome == Err(AlreadyFriends)
      && Count(r.store[user].friends, author) == 1
      && Count(r.store[author].friends, user) == 1
      && r.store[user].incomingFriendRequests == store[user].incomingFriendRequests
      && r.store[user].outgoingFriendRequests == store[user].outgoingFriendRequests
      && r.store[author].incomingFriendRequests == store[author].incomingFriendRequests
      && r.store[author].outgoingFriendRequests == store[author].outgoingFriendRequests
    ensures user != author && user in store && author in store && !EitherFriend(store, user, author) ==>
      && r.outcome == (if author in store[user].outgoingFriendRequests
                          || user in store[author].incomingFriendRequests
                       then Err(AlreadySent) else Ok)
      && Count(r.store[user].outgoingFriendRequests, author) == 1
      && Count(r.store[author].incomingFriendRequests, user) == 1
      && r.store[user].friends == store[user].friends
      && r.store[author].friends == store[author].friends
      && r.store[user].incomingFriendRequests == store[user].incomingFriendRequests
      && r.store[author].outgoingFriendRequests == store[author].outgoingFriendRequests
  {
    if user == author then Update(store, Err(SelfRequest))
    else if user !in store then Update(store, Err(UserMissing))
    else if author !in store then Update(store, Err(AuthorMissing))
    else
      var u := store[user];
      var a := store[author];
      if author in u.friends || user in a.friends then
        Update(SaveBoth(store, user, RefreshIn(u, Friends, author), author, RefreshIn(a, Friends, user)),
               Err(AlreadyFriends))
      else
        var outcome :=
          if author in u.outgoingFriendRequests || user in a.incomingFriendRequests
          then Err(AlreadySent) else Ok;
        Update(SaveBoth(store, user, RefreshIn(u, Outgoing, author), author, RefreshIn(a, Incoming, user)),
               outcome)
  }

  /** controllers/authorController.js `removeRequest`. */
  function RemoveRequest(store: Authors, user: Id, author: Id): (r: Update<Authors>)
    ensures user !in store ==> r == Update(store, Err(UserMissing))
    ensures user in store && author !in store ==> r == Update(store, Err(AuthorMissing))
    ensures PairOnly(store, r.store, user, author)
    ensures user != author && user in store && author in store && EitherFriend(store, user, author) ==>
      && r.outcome == Err(AlreadyFriends)
      && Count(r.store[user].friends, author) == 1
      && Count(r.store[author].friends, user) == 1
      && author !in r.store[user].incomingFriendRequests
      && author !in r.store[user].outgoingFriendRequests
      && user !in r.store[author].incomingFriendRequests
      && user !in r.store[author].outgoingFriendRequests
    ensures user != author && user in store && author in store && !EitherFriend(store, user, author) ==>
      && r.outcome == (if author !in store[user].outgoingFriendRequests
                          || user !in store[author].incomingFriendRequests
                       then Err(NotSent) else Ok)
      && author !in r.store[user].outgoingFriendRequests
      && user !in r.store[author].incomingFriendRequests
      && r.store[user].friends == store[user].friends
      && r.store[author].friends == store[author].friends
      && r.store[user].incomingFriendRequests == store[user].incomingFriendRequests
      && r.store[author].outgoingFriendRequests == store[author].outgoingFriendRequests
  {
    if user !in store then Update(store, Err(UserMissing))
    else if author !in store then Update(store, Err(AuthorMissing))
    else if EitherFriend(store, user, author) then
      Update(RepairFriends(store, user, author), Err(AlreadyFriends))
    else
      var outcome :=
        if author !in store[user].outgoingFriendRequests || user !in store[author].incomingFriendRequests
        then Err(NotSent) else Ok;
      Update(DropOutgoing(store, user, author), outcome)
  }

  /** controllers/authorController.js `acceptRequest`. */
  function AcceptRequest(store: Authors, user: Id, author: Id): (r: Update<Authors>)
    ensures user !in store ==> r == Update(store, Err(UserMissing))
    ensures user in store && user == author ==>
      && r.outcome == Err(SelfAccept)
      && r.store.Keys == store.Keys
      && r.store == store[user := r.store[user]]
      && Touches(store[user], r.store[user], user)
      && user !in r.store[user].friends
      && user !in r.store[user].incomingFriendRequests
      && user !in r.store[user].outgoingFriendRequests
    ensures user in store && user != author && author !in store ==> r == Update(store, Err(AuthorMissing))
    ensures PairOnly(store, r.store, user, author)
    ensures user != author && user in store && author in store && EitherFriend(store, user, author) ==>
      && r.outcome == Err(AlreadyFriends)
      && Count(r.store[user].friends, author) == 1
      && Count(r.store[author].friends, user) == 1
      && author !in r.store[user].incomingFriendRequests
      && author !in r.store[user].outgoingFriendRequests
      && user !in r.store[author].incomingFriendRequests
      && user !in r.store[author].outgoingFriendRequests
    ensures user != author && user in store && author in store && !EitherFriend(store, user, author) ==>
      && author !in r.store[user].incomingFriendRequests
      && user !in r.store[author].outgoingFriendRequests
      && r.store[user].outgoingFriendRequests == store[user].outgoingFriendRequests
      && r.store[author].incomingFriendRequests == store[author].incomingFriendRequests
      && (if author in store[user].incomingFriendRequests && user in store[author].outgoingFriendRequests
          then r.outcome == Ok
               && Count(r.store[user].friends, author) == 1
               && Count(r.store[author].friends, user) == 1
          else r.outcome == Err(NotReceived)
               && r.store[user].friends == store[user].friends
               && r.store[author].friends == store[author].friends)
  {
    if user !in store then Update(store, Err(UserMissing))
    else if user == author then
      var u := store[user];
      var b := ClearPending(u, user);
      var c := PullFrom(b, Friends, user);
      TouchesTransitive(u, b, c, user);
      Update(store[user := c], Err(SelfAccept))
    else if author !in store then Update(store, Err(AuthorMissing))
    else if EitherFriend(store, user, author) then
      Update(RepairFriends(store, user, author), Err(AlreadyFriends))
    else if author !in store[user].incomingFriendRequests || user !in store[author].outgoingFriendRequests then
      Update(DropIncoming(store, user, author), Err(NotReceived))
    else
      var u := PullFrom(store[user], Incoming, author);
      var a := PullFrom(store[author], Outgoing, user);
      var u' := PushOnto(u, Friends, author);
      var a' := PushOnto(a, Friends, user);
      TouchesTransitive(store[user], u, u', author);
      TouchesTransitive(store[author], a, a', user);
      Update(SaveBoth(store, user, u', author, a'), Ok)
  }

  /** controllers/authorController.js `rejectRequest`. */
  function RejectRequest(store: Authors, user: Id, author: Id): (r: Update<Authors>)
    ensures user !in store ==> r == Update(store, Err(UserMissing))
    ensures user in store && author !in store ==> r == Update(store, Err(AuthorMissing))
    ensures PairOnly(store, r.store, user, author)
    ensures user != author && user in store && author in store && EitherFriend(store, user, author) ==>
      && r.outcome == Err(AlreadyFriends)
      && Count(r.store[user].friends, author) == 1
      && Count(r.store[author].friends, user) == 1
      && author !in r.store[user].incomingFriendRequests
      && author !in r.store[user].outgoingFriendRequests
      && user !in r.store[author].incomingFriendRequests
      && user !in r.store[author].outgoingFriendRequests
    ensures user != author && user in store && author in store && !EitherFriend(store, user, author) ==>
      && r.outcome == (if user in store[author].outgoingFriendRequests
                          && author in store[user].incomingFriendRequests
                       then Ok else Err(NotReceived))
      && author !in r.store[user].incomingFriendRequests
      && user !in r.store[author].outgoingFriendRequests
      && r.store[user].friends == store[user].friends
      && r.store[author].friends == store[author].friends
      && r.store[user].outgoingFriendRequests == store[user].outgoingFriendRequests
      && r.store[author].incomingFriendRequests == store[author].incomingFriendRequests
  {
    if user !in store then Update(store, Err(UserMissing))
    else if author !in store then Update(store, Err(AuthorMissing))
    else if EitherFriend(store, user, author) then
      Update(RepairFriends(store, user, author), Err(AlreadyFriends))
    else if user !in store[author].outgoingFriendRequests || author !in store[user].incomingFriendRequests then
      Update(DropIncoming(store, user, author), Err(NotReceived))
    else
      Update(DropIncoming(store, user, author), Ok)
  }

  /** controllers/authorController.js `removeFriend`: only the user's side decides the error. */
  function RemoveFriend(store: Authors, user: Id, author: Id): (r: Update<Authors>)
    ensures user !in store ==> r == Update(store, Err(UserMissing))
    ensures user in store && author !in store ==> r == Update(store, Err(AuthorMissing))
    ensures PairOnly(store, r.store, user, author)
    ensures user in store && author in store ==>
      && author !in r.store[user].friends
      && user !in r.store[author].friends
      && r.outcome == (if author in store[user].friends then Ok else Err(NotFriends))
    ensures user != author && user in store && author in store ==>
      && r.store[user].incomingFriendRequests == store[user].incomingFriendRequests
      && r.store[user].outgoingFriendRequests == store[user].outgoingFriendRequests
      && r.store[author].incomingFriendRequests == store[author].incomingFriendRequests
      && r.store[author].outgoingFriendRequests == store[author].outgoingFriendRequests
  {
    if user !in store then Update(store, Err(UserMissing))
    else if author !in store then Update(store, Err(AuthorMissing))
    else
      var outcome := if author !in store[user].friends then Err(NotFriends) else Ok;
      Update(SaveBoth(store, user, PullFrom(store[user], Friends, author),
                      author, PullFrom(store[author], Friends, user)), outcome)
  }

  /** controllers/authorController.js `removeAction`. */
  function RemoveAction(db: Db, author: Id, action: Id): (r: Update<Db>)
    ensures author !in db.authors ==> r == Update(db, Err(AuthorMissing))
    ensures author in db.authors ==>
      && r.outcome == Ok
      && action !in r.store.actions
      && r.store.actions == db.actions - {action}
      && r.store.authors.Keys == db.authors.Keys
      && action !in r.store.authors[author].actions
      && SameBut(r.store.authors[author].actions, db.authors[author].actions, action)
      && r.store.authors[author] == db.authors[author].(actions := r.store.authors[author].actions)
      && (forall x :: x in db.authors && x != author ==> r.store.authors[x] == db.authors[x])
      && r.store == db.(authors := r.store.authors, actions := r.store.actions)
  {
    if author !in db.authors then Update(db, Err(AuthorMissing))
    else
      var a := db.authors[author];
      Update(db.(authors := db.authors[author := a.(actions := Pull(a.actions, action))],
                 actions := db.actions - {action}), Ok)
  }

  /** A repeated `removeAction` changes nothing more and succeeds again. */
  lemma RemoveActionIdempotent(db: Db, author: Id, action: Id)
    ensures var r := RemoveAction(db, author, action);
            RemoveAction(r.store, author, action) == r
  {
    var r := RemoveAction(db, author, action);
    if author in db.authors {
      var a := r.store.authors[author];
      var r2 := RemoveAction(r.store, author, action);
      assert Pull(a.actions, action) == a.actions;
      assert r2.store.authors == r.store.authors;
      assert r2.store.actions == r.store.actions;
    }
  }

  /**
   `removeAction` pulls the action from the one author it is given, so the
   other party of the action keeps listing it; `deepDeleteAction` with its
   queries executed clears it from both.
   */
  lemma RemoveActionLeavesOtherParty(db: Db, author: Id, other: Id, action: Id)
    requires author in db.authors && other in db.authors && other != author
    requires action in db.authors[other].actions
    ensures action in RemoveAction(db, author, action).store.authors[other].actions
    ensures action in db.actions && Actions.Involves(db.actions[action], other) ==>
      action !in Actions.DeepDeleteAction(db, action).store.authors[other].actions
  {
  }

  /**
   While friendships and requests are paired, `getAcquaintances` is
   symmetric: `x` is among `a`'s acquaintances iff `a` is among `x`'s.
   */
  lemma AcquaintancesSymmetric(store: Authors, a: Id, x: Id)
    requires AllPaired(store) && a in store && x in store
    ensures x in Helpers.GetAcquaintances(store[a]) <==> a in Helpers.GetAcquaintances(store[x])
  {
    assert Paired(store, a, x) && Paired(store, x, a);
  }

  // ---------------------------------------------------------------------------
  // Properties across calls

  lemma RefreshInIdempotent(a: Author, f: Rel, x: Id)
    ensures RefreshIn(RefreshIn(a, f, x), f, x) == RefreshIn(a, f, x)
  {
    RefreshIdempotent(Field(a, f), x);
  }

  lemma SaveBothUnchanged(store: Authors, user: Id, author: Id)
    requires user in store && author in store
    ensures SaveBoth(store, user, store[user], author, store[author]) == store
  {
  }

  /** A repeated `sendRequest` rewrites nothing; after a success the repeat reports "already sent". */
  lemma SendRequestIdempotent(store: Authors, user: Id, author: Id)
    ensures var r := SendRequest(store, user, author);
            var r2 := SendRequest(r.store, user, author);
            r2.store == r.store && (r.outcome == Ok ==> r2.outcome == Err(AlreadySent))
  {
    var r := SendRequest(store, user, author);
    if user != author && user in store && author in store {
      var u := store[user];
      var a := store[author];
      var s := r.store;
      if author in u.friends || user in a.friends {
        RefreshInIdempotent(u, Friends, author);
        RefreshInIdempotent(a, Friends, user);
        assert s[user] == RefreshIn(u, Friends, author);
        assert author in s[user].friends;
        SaveBothUnchanged(s, user, author);
      } else {
        RefreshInIdempotent(u, Outgoing, author);
        RefreshInIdempotent(a, Incoming, user);
        assert s[user] == RefreshIn(u, Outgoing, author);
        assert s[author] == RefreshIn(a, Incoming, user);
        assert author in s[user].outgoingFriendRequests;
        SaveBothUnchanged(s, user, author);
      }
    }
  }

  /** Calling `removeFriend` twice leaves what calling it once leaves, and the repeat reports "not friends". */
  lemma RemoveFriendIdempotent(store: Authors, user: Id, author: Id)
    requires user in store && author in store
    ensures var r := RemoveFriend(store, user, author);
            var r2 := RemoveFriend(r.store, user, author);
            r2.store == r.store && r2.outcome == Err(NotFriends)
  {
    var r := RemoveFriend(store, user, author);
    var r2 := RemoveFriend(r.store, user, author);
    if user == author {
      assert r2.store[user] == r.store[user];
    } else {
      assert r2.store[user] == r.store[user];
      assert r2.store[author] == r.store[author];
    }
  }

  /**
   The code does not keep the four pair states exclusive: a user can send a
   request to an author who has already sent one to them, and both requests
   then stand.
   */
  lemma CrossRequestsCoexist(store: Authors, user: Id, author: Id)
    requires user != author && user in store && author in store
    requires !EitherFriend(store, user, author)
    requires author !in store[user].outgoingFriendRequests && user !in store[author].incomingFriendRequests
    requires author in store[user].incomingFriendRequests && user in store[author].outgoingFriendRequests
    ensures var r := SendRequest(store, user, author);
            && r.outcome == Ok
            && author in r.store[user].outgoingFriendRequests && author in r.store[user].incomingFriendRequests
            && user in r.store[author].outgoingFriendRequests && user in r.store[author].incomingFriendRequests
  {
  }

  // ---------------------------------------------------------------------------
  // Symmetry of the relationship arrays

  /**
   `x` and `y` agree about their friendship and about a request from `x` to
   `y` (the reverse request is `Paired(store, y, x)`).
   */
  predicate Paired(store: Authors, x: Id, y: Id) {
    x in store && y in store ==>
      && (y in store[x].friends <==> x in store[y].friends)
      && (y in store[x].outgoingFriendRequests <==> x in store[y].incomingFriendRequests)
  }

  /** Every pair of authors agrees about every relationship between them. */
  ghost predicate AllPaired(store: Authors) {
    forall x, y :: Paired(store, x, y)
  }

  lemma CountPositive(s: seq<Id>, y: Id)
    ensures y in s <==> Count(s, y) > 0
  {
  }

  lemma TouchesKeepsOthers(before: Author, after: Author, x: Id, y: Id)
    requires Touches(before, after, x) && y != x
    ensures y in after.friends <==> y in before.friends
    ensures y in after.incomingFriendRequests <==> y in before.incomingFriendRequests
    ensures y in after.outgoingFriendRequests <==> y in before.outgoingFriendRequests
  {
    assert SameBut(Field(after, Friends), Field(before, Friends), x);
    assert SameBut(Field(after, Incoming), Field(before, Incoming), x);
    assert SameBut(Field(after, Outgoing), Field(before, Outgoing), x);
    CountPositive(after.friends, y);
    CountPositive(before.friends, y);
    CountPositive(after.incomingFriendRequests, y);
    CountPositive(before.incomingFriendRequests, y);
    CountPositive(after.outgoingFriendRequests, y);
    CountPositive(before.outgoingFriendRequests, y);
  }

  /**
   A step that changes only the pair's own entries keeps every pair agreed
   as soon as the pair itself agrees afterwards.
   */
  lemma {:induction false} PairStepKeepsPairing(store: Authors, store': Authors, user: Id, author: Id)
    requires AllPaired(store) && user in store && author in store
    requires PairOnly(store, store', user, author)
    requires user == author ==>
      store' == store[user := store'[user]] && Touches(store[user], store'[user], user)
    requires Paired(store', user, author) && Paired(store', author, user)
    requires Paired(store', user, user) && Paired(store', author, author)
    ensures AllPaired(store')
  {
    forall x, y
      ensures Paired(store', x, y)
    {
      if x in store' && y in store' && !({x, y} <= {user, author}) {
        assert Paired(store, x, y);
        if x == user || x == author {
          var other := if x == user then author else user;
          TouchesKeepsOthers(store[x], store'[x], other, y);
        }
        if y == user || y == author {
          var other := if y == user then author else user;
          TouchesKeepsOthers(store[y], store'[y], other, x);
        }
      } else if x in store' && y in store' {
        assert x == user || x == author;
        assert y == user || y == author;
      }
    }
  }

  lemma SendRequestKeepsPairing(store: Authors, user: Id, author: Id)
    requires AllPaired(store)
    ensures AllPaired(SendRequest(store, user, author).store)
  {
    var r := SendRequest(store, user, author);
    if user != author && user in store && author in store {
      var s := r.store;
      assert Paired(store, user, user) && Paired(store, author, author);
      assert Paired(store, author, user) && Paired(store, user, author);
      TouchesKeepsOthers(store[user], s[user], author, user);
      TouchesKeepsOthers(store[author], s[author], user, author);
      if EitherFriend(store, user, author) {
        CountPositive(s[user].friends, author);
        CountPositive(s[author].friends, user);
      } else {
        CountPositive(s[user].outgoingFriendRequests, author);
        CountPositive(s[author].incomingFriendRequests, user);
      }
      assert Paired(s, user, author) && Paired(s, author, user);
      PairStepKeepsPairing(store, s, user, author);
    }
  }

  lemma RemoveRequestKeepsPairing(store: Authors, user: Id, author: Id)
    requires AllPaired(store) && user != author
    ensures AllPaired(RemoveRequest(store, user, author).store)
  {
    var r := RemoveRequest(store, user, author);
    if user in store && author in store {
      assert Paired(store, user, user) && Paired(store, author, author);
      assert Paired(store, author, user) && Paired(store, user, author);
      TouchesKeepsOthers(store[user], r.store[user], author, user);
      TouchesKeepsOthers(store[author], r.store[author], user, author);
      PairStepKeepsPairing(store, r.store, user, author);
    }
  }

  lemma AcceptRequestKeepsPairing(store: Authors, user: Id, author: Id)
    requires AllPaired(store)
    ensures AllPaired(AcceptRequest(store, user, author).store)
  {
    var r := AcceptRequest(store, user, author);
    if user in store && author in store {
      if user == author {
        PairStepKeepsPairing(store, r.store, user, author);
      } else {
        assert Paired(store, user, user) && Paired(store, author, author);
        assert Paired(store, author, user) && Paired(store, user, author);
        TouchesKeepsOthers(store[user], r.store[user], author, user);
        TouchesKeepsOthers(store[author], r.store[author], user, author);
        PairStepKeepsPairing(store, r.store, user, author);
      }
    }
  }

  lemma RejectRequestKeepsPairing(store: Authors, user: Id, author: Id)
    requires AllPaired(store) && user != author
    ensures AllPaired(RejectRequest(store, user, author).store)
  {
    var r := RejectRequest(store, user, author);
    if user in store && author in store {
      assert Paired(store, user, user) && Paired(store, author, author);
      assert Paired(store, author, user) && Paired(store, user, author);
      TouchesKeepsOthers(store[user], r.store[user], author, user);
      TouchesKeepsOthers(store[author], r.store[author], user, author);
      PairStepKeepsPairing(store, r.store, user, author);
    }
  }

  lemma RemoveFriendKeepsPairing(store: Authors, user: Id, author: Id)
    requires AllPaired(store) && user != author
    ensures AllPaired(RemoveFriend(store, user, author).store)
  {
    var r := RemoveFriend(store, user, author);
    if user in store && author in store {
      assert Paired(store, user, user) && Paired(store, author, author);
      assert Paired(store, author, user) && Paired(store, user, author);
      TouchesKeepsOthers(store[user], r.store[user], author, user);
      TouchesKeepsOthers(store[author], r.store[author], user, author);
      PairStepKeepsPairing(store, r.store, user, author);
    }
  }
}

=== FILE: helpers.dfy ===
/**
 The pure formatting helpers of other/handler.js that the notification
 messages are built from: a truncated preview of a text, an author's display
 name, and the list of everyone an author has a relationship with.
 */
module Helpers {
  import opened Lists
  import opened Records

  /** Length of the preview before the ellipsis is appended. */
  const PreviewLength := 30

  const Ellipsis := ". . ."

  /** other/handler.js `formatBody`: the first 30 characters, with ". . ." when something was cut. */
  function FormatBody(body: string): (r: string)
    ensures |body| <= PreviewLength ==> r == body
    ensures |body| > PreviewLength ==> |r| == PreviewLength + |Ellipsis|
    ensures r[..Min(|body|, PreviewLength)] == body[..Min(|body|, PreviewLength)]
    ensures |body| > PreviewLength ==> r[PreviewLength..] == Ellipsis
    ensures |r| <= PreviewLength + |Ellipsis|
  {
    if |body| > PreviewLength then body[..PreviewLength] + Ellipsis else body
  }

  function Min(a: int, b: int): int {
    if a <= b then a else b
  }

  /** A preview is its own preview: formatting a formatted text changes nothing. */
  lemma {:induction false} FormatBodyIdempotent(body: string)
    ensures FormatBody(FormatBody(body)) == FormatBody(body)
  {
    var r := FormatBody(body);
    if |body| > PreviewLength {
      assert r[..PreviewLength] == body[..PreviewLength];
      assert r[PreviewLength..] == Ellipsis;
    }
  }

  /**
   other/handler.js `getName`: first and last name, separated by one space
   only when both are present; the pseudonym when both are empty.
   */
  function GetName(author: Author): (r: string)
    ensures author.firstName == "" && author.lastName == "" ==> r == author.pseudonym
    ensures author.firstName != "" || author.lastName != "" ==>
      && |r| == |author.firstName| + |author.lastName| + (if author.firstName != "" && author.lastName != "" then 1 else 0)
      && r[..|author.firstName|] == author.firstName
      && r[|r| - |author.lastName|..] == author.lastName
    ensures author.firstName != "" && author.lastName != "" ==> r[|author.firstName|] == ' '
  {
    var separator := if author.firstName != "" && author.lastName != "" then " " else "";
    var name := author.firstName + separator + author.lastName;
    if name == "" then author.pseudonym else name
  }

  /** Every author has a non-empty display name, since the pseudonym is required. */
  lemma GetNameNonEmpty(author: Author)
    requires author.pseudonym != ""
    ensures GetName(author) != ""
  {
  }

  /** With both names present the display name is exactly "first last". */
  lemma GetNameSplits(author: Author)
    requires author.firstName != "" && author.lastName != ""
    ensures GetName(author) == author.firstName + [' '] + author.lastName
  {
  }

  /** Where the first space of `s` is; `|s|` when there is none. */
  function FirstSpace(s: string): (n: nat)
    ensures n <= |s|
    ensures forall i :: 0 <= i < n ==> s[i] != ' '
    ensures n < |s| ==> s[n] == ' '
  {
    if |s| == 0 || s[0] == ' ' then 0 else 1 + FirstSpace(s[1..])
  }

  /** Split a display name at its first space into a first and a last name. */
  function SplitName(name: string): (r: (string, string))
    ensures ' ' !in r.0
    ensures ' ' !in name ==> r == (name, "")
    ensures ' ' in name ==> name == r.0 + " " + r.1
  {
    var n := FirstSpace(name);
    if n == |name| then
      assert name[..n] == name;
      (name, "")
    else
      assert name == name[..n] + " " + name[n + 1..];
      (name[..n], name[n + 1..])
  }

  /**
   A display name built from a first name with no space in it splits back
   into the first and last names it was built from.
   */
  lemma SplitNameInvertsGetName(author: Author)
    requires author.firstName != "" && ' ' !in author.firstName
    ensures SplitName(GetName(author)) == (author.firstName, author.lastName)
  {
    var f, l := author.firstName, author.lastName;
    var r := GetName(author);
    if l != "" {
      assert r == f + " " + l;
      assert r[|f|] == ' ';
      assert forall i :: 0 <= i < |f| ==> r[i] == f[i];
      assert FirstSpace(r) == |f|;
      assert r[..|f|] == f && r[|f| + 1..] == l;
    } else {
      assert r == f;
      assert FirstSpace(r) == |r|;
    }
  }

  /**
   other/handler.js `getAcquaintances`: friends, then incoming requests,
   then outgoing requests, concatenated without removing duplicates.
   */
  function GetAcquaintances(author: Author): (r: seq<Id>)
    ensures |r| == |author.friends| + |author.incomingFriendRequests| + |author.outgoingFriendRequests|
    ensures forall x :: Count(r, x) == (Count(author.friends, x) + Count(author.incomingFriendRequests, x)
                                        + Count(author.outgoingFriendRequests, x))
    ensures forall x :: x in r <==>
      x in author.friends || x in author.incomingFriendRequests || x in author.outgoingFriendRequests
    ensures r[..|author.friends|] == author.friends
    ensures r[|author.friends|..|author.friends| + |author.incomingFriendRequests|] == author.incomingFriendRequests
    ensures r[|author.friends| + |author.incomingFriendRequests|..] == author.outgoingFriendRequests
  {
    author.friends + author.incomingFriendRequests + author.outgoingFriendRequests
  }
}

=== FILE: lists.dfy ===
/**
 The array discipline every record update in the backend relies on. Mongo
 array fields hold ids; Mongoose's `pull(x)` removes every occurrence of `x`
 and `push(x)` appends it. The controllers "refresh" an entry by pulling it
 and pushing it again, so that an entry occurs exactly once afterwards.
 */
module Lists {

  /** A Mongo id as stored in an array or reference field; "" means "no reference". */
  type Id = string

  /** Number of occurrences of `x` in `s`. */
  function Count<T(==)>(s: seq<T>, x: T): nat {
    multiset(s)[x]
  }

  /** `a` is `b` with some elements dropped and the rest kept in order. */
  predicate IsSubsequence<T(==)>(a: seq<T>, b: seq<T>)
    decreases |b|
  {
    if |a| == 0 then true
    else if |b| == 0 then false
    else if a[0] == b[0] then IsSubsequence(a[1..], b[1..])
    else IsSubsequence(a, b[1..])
  }

  lemma SubsequenceReflexive<T>(s: seq<T>)
    ensures IsSubsequence(s, s)
  {
  }

  lemma {:induction false} SubsequenceTail<T>(a: seq<T>, b: seq<T>)
    requires |a| > 0 && IsSubsequence(a, b)
    ensures IsSubsequence(a[1..], b)
    decreases |b|, 0
  {
    if |a| > 1 && |b| > 0 {
      if a[0] == b[0] {
        SubsequenceTail(a[1..], b[1..]);
        SubsequencePrepend(a[1..], b[1..], b[0]);
        assert b == [b[0]] + b[1..];
      } else {
        SubsequenceTail(a, b[1..]);
        SubsequencePrepend(a[1..], b[1..], b[0]);
        assert b == [b[0]] + b[1..];
      }
    }
  }

  lemma {:induction false} SubsequencePrepend<T>(a: seq<T>, b: seq<T>, x: T)
    requires IsSubsequence(a, b)
    ensures IsSubsequence(a, [x] + b)
    decreases |b|, 1
  {
    if |a| > 0 {
      assert ([x] + b)[1..] == b;
      if a[0] == x {
        SubsequenceTail(a, b);
      }
    }
  }

  lemma SubsequenceCons<T>(a: seq<T>, b: seq<T>, x: T)
    requires IsSubsequence(a, b)
    ensures IsSubsequence([x] + a, [x] + b)
  {
    assert ([x] + a)[1..] == a;
    assert ([x] + b)[1..] == b;
  }

  /** Mongoose `pull`: drop every occurrence of `x`, keep everything else in order. */
  function Pull(s: seq<Id>, x: Id): (r: seq<Id>)
    ensures Count(r, x) == 0 && x !in r
    ensures forall y :: y != x ==> Count(r, y) == Count(s, y)
    ensures forall y :: y in r <==> y in s && y != x
    ensures x !in s ==> r == s
    ensures IsSubsequence(r, s)
  {
    if |s| == 0 then []
    else
      assert s == [s[0]] + s[1..];
      var rest := Pull(s[1..], x);
      if s[0] == x then
        SubsequencePrepend(rest, s[1..], x);
        rest
      else
        SubsequenceCons(rest, s[1..], s[0]);
        [s[0]] + rest
  }

  /** Mongoose `push`: append `x`. */
  function Push(s: seq<Id>, x: Id): (r: seq<Id>)
    ensures Count(r, x) == Count(s, x) + 1
    ensures forall y :: y != x ==> Count(r, y) == Count(s, y)
    ensures |r| == |s| + 1 && r[|s|] == x && r[..|s|] == s
  {
    s + [x]
  }

  /**
   The controllers' "make sure the arrays are correct" idiom: pull `x`, then
   push it. Afterwards `x` occurs exactly once, as the last element, and the
   other entries keep their counts and their relative order.
   */
  function Refresh(s: seq<Id>, x: Id): (r: seq<Id>)
    ensures Count(r, x) == 1
    ensures forall y :: y != x ==> Count(r, y) == Count(s, y)
    ensures forall y :: y in r <==> y in s || y == x
    ensures |r| > 0 && r[|r| - 1] == x
    ensures x !in r[..|r| - 1] && IsSubsequence(r[..|r| - 1], s)
  {
    var p := Pull(s, x);
    assert Push(p, x)[..|p|] == p;
    Push(p, x)
  }

  /** Keep the elements that satisfy `p`, in order: a JavaScript `filter`. */
  function Keep<T(==,!new)>(s: seq<T>, p: T -> bool): (r: seq<T>)
    ensures forall y :: Count(r, y) == if p(y) then Count(s, y) else 0
    ensures forall y :: y in r <==> y in s && p(y)
    ensures |r| <= |s|
    ensures IsSubsequence(r, s)
  {
    if |s| == 0 then []
    else
      assert s == [s[0]] + s[1..];
      var rest := Keep(s[1..], p);
      if p(s[0]) then
        SubsequenceCons(rest, s[1..], s[0]);
        [s[0]] + rest
      else
        SubsequencePrepend(rest, s[1..], s[0]);
        rest
  }

  /** Pulling distributes over concatenation. */
  lemma {:induction false} PullAppend(a: seq<Id>, b: seq<Id>, x: Id)
    ensures Pull(a + b, x) == Pull(a, x) + Pull(b, x)
  {
    if |a| == 0 {
      assert a + b == b;
    } else {
      assert (a + b)[1..] == a[1..] + b;
      PullAppend(a[1..], b, x);
    }
  }

  /** Refreshing twice is refreshing once: a repeated request rewrites nothing. */
  lemma RefreshIdempotent(s: seq<Id>, x: Id)
    ensures Refresh(Refresh(s, x), x) == Refresh(s, x)
  {
    var p := Pull(s, x);
    PullAppend(p, [x], x);
    assert Pull([x], x) == [];
    assert Pull(p + [x], x) == p;
  }

  /** Pushing an entry that was absent and pulling it again restores the list exactly. */
  lemma PushThenPull(s: seq<Id>, x: Id)
    requires x !in s
    ensures Pull(Push(s, x), x) == s
  {
    PullAppend(s, [x], x);
    assert Pull([x], x) == [];
  }

  /** One step of `Pull` on a list written as head and tail. */
  lemma PullHead(h: Id, t: seq<Id>, x: Id)
    ensures Pull([h] + t, x) == if h == x then Pull(t, x) else [h] + Pull(t, x)
  {
    assert ([h] + t)[0] == h && ([h] + t)[1..] == t;
  }

  /** Two pulls commute, so the order of independent cascade steps does not matter. */
  lemma {:induction false} PullCommutes(s: seq<Id>, x: Id, y: Id)
    ensures Pull(Pull(s, x), y) == Pull(Pull(s, y), x)
  {
    if |s| > 0 {
      var h, t := s[0], s[1..];
      PullCommutes(t, x, y);
      assert s == [h] + t;
      PullHead(h, t, x);
      PullHead(h, t, y);
      if h != x {
        PullHead(h, Pull(t, x), y);
      }
      if h != y {
        PullHead(h, Pull(t, y), x);
      }
    }
  }

  /** Keeping by `p` and then by `q` is keeping by both. */
  lemma {:induction false} KeepKeep<T(!new)>(s: seq<T>, p: T -> bool, q: T -> bool)
    ensures Keep(Keep(s, p), q) == Keep(s, y => p(y) && q(y))
  {
    if |s| > 0 {
      KeepKeep(s[1..], p, q);
      if p(s[0]) {
        assert Keep(s, p)[0] == s[0];
        assert Keep(s, p)[1..] == Keep(s[1..], p);
      }
    }
  }

  /** `Keep` depends only on the verdicts of `p` on the elements present. */
  lemma {:induction false} KeepCongruent<T(!new)>(s: seq<T>, p: T -> bool, q: T -> bool)
    requires forall y :: y in s ==> p(y) == q(y)
    ensures Keep(s, p) == Keep(s, q)
  {
    if |s| > 0 {
      assert forall y :: y in s[1..] ==> y in s;
      KeepCongruent(s[1..], p, q);
    }
  }

  /** `Pull` is the filter that drops `x`. */
  lemma {:induction false} PullIsKeep(s: seq<Id>, x: Id)
    ensures Pull(s, x) == Keep(s, y => y != x)
  {
    if |s| > 0 {
      PullIsKeep(s[1..], x);
    }
  }

  /** The first `n` elements of a subsequence are a subsequence. */
  lemma {:induction false} SubsequencePrefix<T>(a: seq<T>, b: seq<T>, n: nat)
    requires IsSubsequence(a, b) && n <= |a|
    ensures IsSubsequence(a[..n], b)
    decreases |b|
  {
    if n > 0 && |b| > 0 {
      if a[0] == b[0] {
        SubsequencePrefix(a[1..], b[1..], n - 1);
        assert a[..n][1..] == a[1..][..n - 1];
      } else {
        SubsequencePrefix(a, b[1..], n);
      }
    }
  }

  /** Being a subsequence is transitive. */
  lemma {:induction false} SubsequenceTransitive<T>(a: seq<T>, b: seq<T>, c: seq<T>)
    requires IsSubsequence(a, b) && IsSubsequence(b, c)
    ensures IsSubsequence(a, c)
    decreases |c|
  {
    if |a| > 0 && |c| > 0 {
      assert c == [c[0]] + c[1..];
      if b[0] == c[0] {
        if a[0] == b[0] {
          SubsequenceTransitive(a[1..], b[1..], c[1..]);
        } else {
          SubsequenceTransitive(a, b[1..], c[1..]);
          SubsequencePrepend(a, c[1..], c[0]);
        }
      } else {
        SubsequenceTransitive(a, b, c[1..]);
        SubsequencePrepend(a, c[1..], c[0]);
      }
    }
  }

  /** Writing a key twice, the second time with its old value, restores the map. */
  lemma MapOverwrite<K, V>(m: map<K, V>, k: K, v1: V, v: V)
    requires k in m && m[k] == v
    ensures m[k := v1][k := v] == m
  {
  }

  /** Writing a key with the value it already holds changes nothing. */
  lemma MapRewrite<K, V>(m: map<K, V>, k: K, v: V)
    requires k in m && m[k] == v
    ensures m[k := v] == m
  {
  }
}

=== FILE: membership.dfy ===
/**
 The book handlers of controllers/bookController.js: a scrap joining or
 leaving a book (Book.scraps against Scrap.book) and an author liking or
 unliking a book (Book.likes against Author.likedBooks).
 */
module Membership {
  import opened Lists
  import opened Records

  /** controllers/bookController.js `addScrap`. */
  function AddScrap(db: Db, book: Id, scrap: Id): (r: Update<Db>)
    ensures book !in db.books ==> r == Update(db, Err(BookMissing))
    ensures book in db.books && scrap !in db.scraps ==> r == Update(db, Err(ScrapMissing))
    ensures book in db.books && scrap in db.scraps ==>
      && r.outcome == Ok
      && r.store == db.(books := r.store.books, scraps := r.store.scraps)
      && r.store.books.Keys == db.books.Keys
      && r.store.books == db.books[book := r.store.books[book]]
      && r.store.scraps.Keys == db.scraps.Keys
      // no other book or scrap is touched
      && r.store.scraps == db.scraps[scrap := r.store.scraps[scrap]]
      && var s := r.store.books[book].scraps;
      // the scrap is listed exactly once, at the end, after the other entries in their old order
      && Count(s, scrap) == 1
      && s[|s| - 1] == scrap
      && IsSubsequence(s[..|s| - 1], db.books[book].scraps)
      && (forall x :: x != scrap ==> Count(s, x) == Count(db.books[book].scraps, x))
      && r.store.books[book] == db.books[book].(scraps := s)
      // the scrap points at the book
      && r.store.scraps[scrap] == db.scraps[scrap].(book := book)
  {
    if book !in db.books then Update(db, Err(BookMissing))
    else if scrap !in db.scraps then Update(db, Err(ScrapMissing))
    else
      var b := db.books[book];
      var s := db.scraps[scrap];
      Update(db.(books := db.books[book := b.(scraps := Refresh(b.scraps, scrap))],
                 scraps := db.scraps[scrap := s.(book := book)]), Ok)
  }

  /**
   controllers/bookController.js `removeScrap`, with the two lookups awaited.
   The second half of the error test, `!scrapModel.book === book`, compares a
   boolean with a string and is never true, so only the book's list decides
   the error; both branches make the same repair.
   */
  function RemoveScrap(db: Db, book: Id, scrap: Id): (r: Update<Db>)
    ensures book !in db.books ==> r == Update(db, Err(BookMissing))
    ensures book in db.books && scrap !in db.scraps ==> r == Update(db, Err(ScrapMissing))
    ensures book in db.books && scrap in db.scraps ==>
      && r.outcome == (if scrap in db.books[book].scraps then Ok else Err(NotInBook))
      && r.store == db.(books := r.store.books, scraps := r.store.scraps)
      && r.store.books.Keys == db.books.Keys
      && r.store.books == db.books[book := r.store.books[book]]
      && r.store.scraps.Keys == db.scraps.Keys
      && r.store.scraps == db.scraps[scrap := r.store.scraps[scrap]]
      && scrap !in r.store.books[book].scraps
      && IsSubsequence(r.store.books[book].scraps, db.books[book].scraps)
      && (forall x :: x != scrap ==> Count(r.store.books[book].scraps, x) == Count(db.books[book].scraps, x))
      && r.store.books[book] == db.books[book].(scraps := r.store.books[book].scraps)
      && r.store.scraps[scrap] == db.scraps[scrap].(book := "")
  {
    if book !in db.books then Update(db, Err(BookMissing))
    else if scrap !in db.scraps then Update(db, Err(ScrapMissing))
    else
      var b := db.books[book];
      var s := db.scraps[scrap];
      var misassigned := false;  // `(!scrapModel.book) === book` is a boolean compared with a string
      var outcome := if scrap !in b.scraps || misassigned then Err(NotInBook) else Ok;
      Update(db.(books := db.books[book := b.(scraps := Pull(b.scraps, scrap))],
                 scraps := db.scraps[scrap := s.(book := "")]), outcome)
  }

  /**
   controllers/bookController.js `removeScrap` as written: `Book.findById` and
   `Scrap.findById` are not awaited, so both "documents" are query objects.
   They are always truthy, so neither not-found test fires, and
   `bookModel.scraps` is undefined, so `.includes` throws before anything is
   saved.
   */
  function RemoveScrapAsWritten(db: Db, book: Id, scrap: Id): (r: Update<Db>)
    ensures r.store == db && r.outcome == Err(TypeError)
  {
    Update(db, Err(TypeError))
  }

  /** The handler as written never detaches a listed scrap; the awaited handler does. */
  lemma RemoveScrapAsWrittenKeepsScrap(db: Db, book: Id, scrap: Id)
    requires book in db.books && scrap in db.scraps && scrap in db.books[book].scraps
    ensures scrap in RemoveScrapAsWritten(db, book, scrap).store.books[book].scraps
    ensures RemoveScrapAsWritten(db, book, scrap).outcome.Err?
    ensures scrap !in RemoveScrap(db, book, scrap).store.books[book].scraps
    ensures RemoveScrap(db, book, scrap).outcome == Ok
  {
  }

  /**
   `addScrap` does not detach the scrap from the book it was in: that book
   still lists it while the scrap now points at the new book.
   */
  lemma AddScrapLeavesOldBook(db: Db, previous: Id, book: Id, scrap: Id)
    requires previous in db.books && book in db.books && scrap in db.scraps && previous != book
    requires scrap in db.books[previous].scraps && db.scraps[scrap].book == previous
    ensures var r := AddScrap(db, book, scrap).store;
            scrap in r.books[previous].scraps && scrap in r.books[book].scraps && r.scraps[scrap].book == book
  {
  }

  /** controllers/bookController.js `addLike`. */
  function AddLike(db: Db, user: Id, book: Id): (r: Update<Db>)
    ensures user !in db.authors ==> r == Update(db, Err(UserMissing))
    ensures user in db.authors && book !in db.books ==> r == Update(db, Err(BookMissing))
    ensures user in db.authors && book in db.books ==>
      && r.outcome == (if user in db.books[book].likes || book in db.authors[user].likedBooks
                       then Err(AlreadyLiked) else Ok)
      && r.store == db.(books := r.store.books, authors := r.store.authors)
      && r.store.books.Keys == db.books.Keys
      && r.store.books == db.books[book := r.store.books[book]]
      && r.store.authors.Keys == db.authors.Keys
      && r.store.authors == db.authors[user := r.store.authors[user]]
      && Count(r.store.books[book].likes, user) == 1
      && Count(r.store.authors[user].likedBooks, book) == 1
      && (forall x :: x != user ==> Count(r.store.books[book].likes, x) == Count(db.books[book].likes, x))
      && (forall x :: x != book ==>
            Count(r.store.authors[user].likedBooks, x) == Count(db.authors[user].likedBooks, x))
      && r.store.books[book] == db.books[book].(likes := r.store.books[book].likes)
      && r.store.authors[user] == db.authors[user].(likedBooks := r.store.authors[user].likedBooks)
  {
    if user !in db.authors then Update(db, Err(UserMissing))
    else if book !in db.books then Update(db, Err(BookMissing))
    else
      var u := db.authors[user];
      var b := db.books[book];
      var outcome := if user in b.likes || book in u.likedBooks then Err(AlreadyLiked) else Ok;
      Update(db.(books := db.books[book := b.(likes := Refresh(b.likes, user))],
                 authors := db.authors[user := u.(likedBooks := Refresh(u.likedBooks, book))]), outcome)
  }

  /** controllers/bookController.js `removeLike`. */
  function RemoveLike(db: Db, user: Id, book: Id): (r: Update<Db>)
    ensures user !in db.authors ==> r == Update(db, Err(UserMissing))
    ensures user in db.authors && book !in db.books ==> r == Update(db, Err(BookMissing))
    ensures user in db.authors && book in db.books ==>
      && r.outcome == (if user !in db.books[book].likes || book !in db.authors[user].likedBooks
                       then Err(NeverLiked) else Ok)
      && r.store == db.(books := r.store.books, authors := r.store.authors)
      && r.store.books.Keys == db.books.Keys
      && r.store.books == db.books[book := r.store.books[book]]
      && r.store.authors.Keys == db.authors.Keys
      && r.store.authors == db.authors[user := r.store.authors[user]]
      && user !in r.store.books[book].likes
      && book !in r.store.authors[user].likedBooks
      && (forall x :: x != user ==> Count(r.store.books[book].likes, x) == Count(db.books[book].likes, x))
      && (forall x :: x != book ==>
            Count(r.store.authors[user].likedBooks, x) == Count(db.authors[user].likedBooks, x))
      && r.store.books[book] == db.books[book].(likes := r.store.books[book].likes)
      && r.store.authors[user] == db.authors[user].(likedBooks := r.store.authors[user].likedBooks)
  {
    if user !in db.authors then Update(db, Err(UserMissing))
    else if book !in db.books then Update(db, Err(BookMissing))
    else
      var u := db.authors[user];
      var b := db.books[book];
      var outcome := if user !in b.likes || book !in u.likedBooks then Err(NeverLiked) else Ok;
      Update(db.(books := db.books[book := b.(likes := Pull(b.likes, user))],
                 authors := db.authors[user := u.(likedBooks := Pull(u.likedBooks, book))]), outcome)
  }

  /** Liking a book nobody had recorded as liked and unliking it again restores the database exactly. */
  lemma {:induction false} LikeThenUnlike(db: Db, user: Id, book: Id)
    requires user in db.authors && book in db.books
    requires user !in db.books[book].likes && book !in db.authors[user].likedBooks
    ensures AddLike(db, user, book).outcome == Ok
    ensures RemoveLike(AddLike(db, user, book).store, user, book) == Update(db, Ok)
    
  {
    var u := db.authors[user];
    var b := db.books[book];
    assert Refresh(b.likes, user) == Push(b.likes, user);
    assert Refresh(u.likedBooks, book) == Push(u.likedBooks, book);
    PushThenPull(b.likes, user);
    PushThenPull(u.likedBooks, book);
    var b1 := b.(likes := Push(b.likes, user));
    var u1 := u.(likedBooks := Push(u.likedBooks, book));
    var mid := db.(books := db.books[book := b1], authors := db.authors[user := u1]);
    assert AddLike(db, user, book) == Update(mid, Ok);
    assert mid.books[book] == b1 && mid.authors[user] == u1;
    assert Pull(b1.likes, user) == b.likes;
    assert Pull(u1.likedBooks, book) == u.likedBooks;
    var fin := db.(books := mid.books[book := b1.(likes := Pull(b1.likes, user))],
                   authors := mid.authors[user := u1.(likedBooks := Pull(u1.likedBooks, book))]);
    assert RemoveLike(mid, user, book).store == fin;
    assert b1.(likes := Pull(b1.likes, user)) == b;
    assert u1.(likedBooks := Pull(u1.likedBooks, book)) == u;
    MapOverwrite(db.books, book, b1, b);
    MapOverwrite(db.authors, user, u1, u);
    assert fin.books == db.books;
    assert fin.authors == db.authors;
    assert fin == db;
    assert RemoveLike(mid, user, book).outcome == Ok;
  }

  /** A repeated `addLike` rewrites nothing and reports "already liked". */
  lemma AddLikeIdempotent(db: Db, user: Id, book: Id)
    requires user in db.authors && book in db.books
    ensures var r := AddLike(db, user, book);
            var r2 := AddLike(r.store, user, book);
            r2.store == r.store && r2.outcome == Err(AlreadyLiked)
  {
    var u := db.authors[user];
    var b := db.books[book];
    RefreshIdempotent(b.likes, user);
    RefreshIdempotent(u.likedBooks, book);
    var b1 := b.(likes := Refresh(b.likes, user));
    var u1 := u.(likedBooks := Refresh(u.likedBooks, book));
    var mid := db.(books := db.books[book := b1], authors := db.authors[user := u1]);
    assert AddLike(db, user, book).store == mid;
    assert mid.books[book] == b1 && mid.authors[user] == u1;
    assert user in b1.likes;
    var fin := mid.(books := mid.books[book := b1.(likes := Refresh(b1.likes, user))],
                    authors := mid.authors[user := u1.(likedBooks := Refresh(u1.likedBooks, book))]);
    assert AddLike(mid, user, book).store == fin;
    assert b1.(likes := Refresh(b1.likes, user)) == b1;
    assert u1.(likedBooks := Refresh(u1.likedBooks, book)) == u1;
    MapRewrite(mid.books, book, b1);
    MapRewrite(mid.authors, user, u1);
    assert fin == mid;
    assert AddLike(mid, user, book) == Update(mid, Err(AlreadyLiked));
  }

  /** A repeated `removeScrap` rewrites nothing and reports that the scrap does not belong to the book. */
  lemma RemoveScrapIdempotent(db: Db, book: Id, scrap: Id)
    requires book in db.books && scrap in db.scraps
    ensures var r := RemoveScrap(db, book, scrap);
            var r2 := RemoveScrap(r.store, book, scrap);
            r2.store == r.store && r2.outcome == Err(NotInBook)
  {
    var r := RemoveScrap(db, book, scrap);
    var r2 := RemoveScrap(r.store, book, scrap);
    assert r2.store.books[book] == r.store.books[book];
    assert r2.store.scraps[scrap] == r.store.scraps[scrap];
  }
}

=== FILE: records.dfy ===
/**
 The documents of the four collections the core works on, plus the two token
 collections the account cascade clears. Every cross-reference is an id; the
 database is one map per collection.
 */
module Records {
  import opened Lists

  datatype Author = Author(
    pseudonym: string,
    email: string,
    firstName: string,
    lastName: string,
    headshot: string,
    cover: string,
    friends: seq<Id>,
    incomingFriendRequests: seq<Id>,
    outgoingFriendRequests: seq<Id>,
    scraps: seq<Id>,
    books: seq<Id>,
    likedBooks: seq<Id>,
    actions: seq<Id>
  )

  /** `beginDate` is a timestamp in milliseconds, the value `Date` subtraction compares. */
  datatype Book = Book(
    author: Id,
    cover: string,
    isPublic: bool,
    beginDate: int,
    likes: seq<Id>,
    scraps: seq<Id>
  )

  /** `book` is "" when the scrap belongs to no book. */
  datatype Scrap = Scrap(
    author: Id,
    book: Id,
    prograph: string,
    retrograph: string,
    threads: seq<Id>,
    createdAt: int
  )

  /** An event between two parties; an unused reference is "". */
  datatype Action = Action(
    senderAuthor: Id,
    senderBook: Id,
    senderScrap: Id,
    targetAuthor: Id,
    targetBook: Id,
    targetScrap: Id
  )

  datatype ConfirmationToken = ConfirmationToken(author: Id)

  datatype PasswordToken = PasswordToken(email: string)

  datatype Db = Db(
    authors: map<Id, Author>,
    books: map<Id, Book>,
    scraps: map<Id, Scrap>,
    actions: map<Id, Action>,
    confirmationTokens: map<Id, ConfirmationToken>,
    passwordTokens: map<Id, PasswordToken>
  )

  /** The error a handler reports; each constructor stands for one message the handlers send. */
  datatype Error =
    | SelfRequest     // "You cannot send a request to yourself"
    | SelfAccept      // "You cannot accept a friend request from yourself"
    | UserMissing     // `user: "<id>" doesn't exist`
    | AuthorMissing   // `author: "<id>" doesn't exist`, "Could not find author", "Could not get ..."
    | BookMissing     // `book: <id> doesn't exist`, "Could not find book"
    | ScrapMissing    // `scrap: <id> doesn't exist`
    | ActionMissing   // "Could not find action"
    | AlreadyFriends  // "You are already friends with <pseudonym>"
    | AlreadySent     // "You already sent a friend request to <pseudonym>"
    | NotSent         // "You haven't yet sent a friend request to <pseudonym>"
    | NotReceived     // "<pseudonym> hasn't yet sent you a friend request"
    | NotFriends      // "You are not already friends with <pseudonym>"
    | NotInBook       // "Scrap does not belong to that book"
    | AlreadyLiked    // "User already liked that book"
    | NeverLiked      // "User never liked that book"
    | TypeError       // reading a field of a query that was never awaited or of a missing document, or calling an undefined import

  datatype Outcome = Ok | Err(error: Error)

  /** The state a handler leaves behind together with what it reports. */
  datatype Update<S> = Update(store: S, outcome: Outcome)

  datatype Result<T> = Success(value: T) | Failure(error: Error)
}

=== FILE: sorting.dfy ===
/**
 other/handler.js `handleScrapSort` and `handleBookSort`: resolve each id,
 drop the ones with no record, and order the rest by a timestamp with
 JavaScript's stable `Array.prototype.sort`. A timestamp table maps each
 resolvable id to its key; the sort is a functional insertion sort that
 keeps equal keys in input order.
 */
module Sorting {
  import opened Lists
  import opened Records

  /** Every id in `s` has a timestamp. */
  ghost predicate Keyed(s: seq<Id>, key: map<Id, int>) {
    forall i :: 0 <= i < |s| ==> s[i] in key
  }

  /** Ascending by timestamp. */
  ghost predicate SortedBy(s: seq<Id>, key: map<Id, int>) {
    && Keyed(s, key)
    && forall i, j :: 0 <= i < j < |s| ==> key[s[i]] <= key[s[j]]
  }

  /** The ids of `s` that resolve, in order. */
  function Resolved(s: seq<Id>, key: map<Id, int>): (r: seq<Id>)
    ensures Keyed(r, key)
    ensures forall x :: Count(r, x) == if x in key then Count(s, x) else 0
    ensures IsSubsequence(r, s)
  {
    if |s| == 0 then []
    else
      assert s == [s[0]] + s[1..];
      var rest := Resolved(s[1..], key);
      if s[0] in key then
        SubsequenceCons(rest, s[1..], s[0]);
        [s[0]] + rest
      else
        SubsequencePrepend(rest, s[1..], s[0]);
        rest
  }

  /** The ids of `s` whose timestamp is `k`, in order: one run of equal keys. */
  function WithKey(s: seq<Id>, key: map<Id, int>, k: int): seq<Id> {
    if |s| == 0 then []
    else if s[0] in key && key[s[0]] == k then [s[0]] + WithKey(s[1..], key, k)
    else WithKey(s[1..], key, k)
  }

  /** Put `x` after every id with a smaller timestamp and before every other one. */
  function Insert(x: Id, s: seq<Id>, key: map<Id, int>): (r: seq<Id>)
    requires x in key && SortedBy(s, key)
    ensures Keyed(r, key)
    ensures multiset(r) == multiset(s) + multiset{x}
    ensures forall k :: WithKey(r, key, k) == if key[x] == k then [x] + WithKey(s, key, k) else WithKey(s, key, k)
  {
    if |s| == 0 || key[x] <= key[s[0]] then
      assert ([x] + s)[1..] == s;
      [x] + s
    else
      assert s == [s[0]] + s[1..];
      var rest := Insert(x, s[1..], key);
      var r := [s[0]] + rest;
      assert r[1..] == rest;
      r
  }

  /** Inserting into a sorted list keeps it sorted. */
  lemma {:induction false} InsertSorted(x: Id, s: seq<Id>, key: map<Id, int>)
    requires x in key && SortedBy(s, key)
    ensures SortedBy(Insert(x, s, key), key)
  {
    if |s| > 0 && key[x] > key[s[0]] {
      var rest := Insert(x, s[1..], key);
      InsertSorted(x, s[1..], key);
      assert s == [s[0]] + s[1..];
      forall y | y in rest
        ensures key[s[0]] <= key[y]
      {
        assert y in multiset(rest);
        assert y in multiset(s[1..]) || y == x;
      }
      var r := Insert(x, s, key);
      assert r == [s[0]] + rest;
    }
  }

  /** A stable sort by timestamp. */
  function Sort(s: seq<Id>, key: map<Id, int>): (r: seq<Id>)
    requires Keyed(s, key)
    ensures SortedBy(r, key)
    ensures multiset(r) == multiset(s)
    ensures forall k :: WithKey(r, key, k) == WithKey(s, key, k)
  {
    if |s| == 0 then []
    else
      assert s == [s[0]] + s[1..];
      InsertSorted(s[0], Sort(s[1..], key), key);
      Insert(s[0], Sort(s[1..], key), key)
  }

  /** Resolve, then sort: the common shape of both handlers. */
  function ResolveAndSort(ids: seq<Id>, key: map<Id, int>): (r: seq<Id>)
    ensures SortedBy(r, key)
    ensures forall x :: Count(r, x) == if x in key then Count(ids, x) else 0
    ensures forall x :: x in r <==> x in ids && x in key
    ensures forall k :: WithKey(r, key, k) == WithKey(ids, key, k)
  {
    var found := Resolved(ids, key);
    ResolvedRuns(ids, key);
    var r := Sort(found, key);
    assert forall x :: x in r <==> x in ids && x in key by {
      forall x
        ensures x in r <==> x in ids && x in key
      {
        assert x in r <==> x in multiset(r);
        assert x in ids <==> x in multiset(ids);
      }
    }
    r
  }

  /** Dropping unresolvable ids leaves every run of equal keys as it was. */
  lemma {:induction false} ResolvedRuns(s: seq<Id>, key: map<Id, int>)
    ensures forall k :: WithKey(Resolved(s, key), key, k) == WithKey(s, key, k)
  {
    if |s| > 0 {
      ResolvedRuns(s[1..], key);
      if s[0] in key {
        assert ([s[0]] + Resolved(s[1..], key))[1..] == Resolved(s[1..], key);
      }
    }
  }

  /** A run holds exactly the ids of the list with that timestamp. */
  lemma {:induction false} WithKeyMembers(s: seq<Id>, key: map<Id, int>, k: int)
    ensures forall x :: x in WithKey(s, key, k) <==> x in s && x in key && key[x] == k
  {
    if |s| > 0 {
      WithKeyMembers(s[1..], key, k);
      assert s == [s[0]] + s[1..];
    }
  }

  /**
   A sorted list is determined by its runs of equal keys: the stable sort is
   the only ascending arrangement that keeps every run in input order.
   */
  lemma {:induction false} SortedUnique(a: seq<Id>, b: seq<Id>, key: map<Id, int>)
    requires SortedBy(a, key) && SortedBy(b, key)
    requires forall k :: WithKey(a, key, k) == WithKey(b, key, k)
    ensures a == b
    decreases |a| + |b|
  {
    if |a| > 0 {
      WithKeyMembers(a, key, key[a[0]]);
      assert WithKey(b, key, key[a[0]]) != [];
    }
    if |b| > 0 {
      WithKeyMembers(b, key, key[b[0]]);
      assert WithKey(a, key, key[b[0]]) != [];
    }
    if |a| > 0 && |b| > 0 {
      var ka, kb := key[a[0]], key[b[0]];
      WithKeyMembers(a, key, kb);
      WithKeyMembers(b, key, ka);
      assert b[0] in WithKey(b, key, kb);
      assert a[0] in WithKey(a, key, ka);
      assert ka == kb;
      assert WithKey(a, key, ka)[0] == a[0] && WithKey(b, key, kb)[0] == b[0];
      forall k
        ensures WithKey(a[1..], key, k) == WithKey(b[1..], key, k)
      {
        if k == ka {
          assert WithKey(a[1..], key, k) == WithKey(a, key, k)[1..];
          assert WithKey(b[1..], key, k) == WithKey(b, key, k)[1..];
        } else {
          assert WithKey(a[1..], key, k) == WithKey(a, key, k);
          assert WithKey(b[1..], key, k) == WithKey(b, key, k);
        }
      }
      SortedUnique(a[1..], b[1..], key);
      assert a == [a[0]] + a[1..] && b == [b[0]] + b[1..];
    }
  }

  /** The resolve-then-sort result is the unique sorted arrangement of the resolvable ids with their runs kept. */
  lemma ResolveAndSortIsStable(ids: seq<Id>, key: map<Id, int>, r: seq<Id>)
    requires SortedBy(r, key)
    requires forall k :: WithKey(r, key, k) == WithKey(ids, key, k)
    ensures r == ResolveAndSort(ids, key)
  {
    SortedUnique(r, ResolveAndSort(ids, key), key);
  }

  /** The timestamps `handleScrapSort` orders by: each scrap's `createdAt`. */
  function CreatedAt(scraps: map<Id, Scrap>): (key: map<Id, int>)
    ensures key.Keys == scraps.Keys
    ensures forall x :: x in scraps ==> key[x] == scraps[x].createdAt
  {
    map x | x in scraps :: scraps[x].createdAt
  }

  /** The timestamps `handleBookSort` orders by: each book's `beginDate`. */
  function BeginDate(books: map<Id, Book>): (key: map<Id, int>)
    ensures key.Keys == books.Keys
    ensures forall x :: x in books ==> key[x] == books[x].beginDate
  {
    map x | x in books :: books[x].beginDate
  }

  /**
   other/handler.js `handleScrapSort`: the ids that resolve to a scrap, each as
   often as it was given, oldest first; scraps created at the same moment stay
   in the order they were given.
   */
  function HandleScrapSort(scraps: map<Id, Scrap>, ids: seq<Id>): (r: seq<Id>)
    ensures forall x :: Count(r, x) == if x in scraps then Count(ids, x) else 0
    ensures forall x :: x in r <==> x in ids && x in scraps
    ensures SortedBy(r, CreatedAt(scraps))
    ensures forall k :: WithKey(r, CreatedAt(scraps), k) == WithKey(ids, CreatedAt(scraps), k)
  {
    ResolveAndSort(ids, CreatedAt(scraps))
  }

  /** other/handler.js `handleBookSort`: as `HandleScrapSort`, by the books' `beginDate`. */
  function HandleBookSort(books: map<Id, Book>, ids: seq<Id>): (r: seq<Id>)
    ensures forall x :: Count(r, x) == if x in books then Count(ids, x) else 0
    ensures forall x :: x in r <==> x in ids && x in books
    ensures SortedBy(r, BeginDate(books))
    ensures forall k :: WithKey(r, BeginDate(books), k) == WithKey(ids, BeginDate(books), k)
  {
    ResolveAndSort(ids, BeginDate(books))
  }
}

=== FILE: visibility.dfy ===
/**
 The read-only projections of controllers/utilityController.js: how one
 author stands to another (`get` with key 'relationship'), which of an
 author's books and scraps are shown ('publicBooks', 'profileBooks',
 'unbookedScraps'), and the `remove` filters and the top-ten cut that
 `bookSearch` applies to the books a text query matched.
 */
module Visibility {
  import opened Lists
  import opened Records
  import opened Sorting
  import Friendship
  import Membership

  /** The relationships the handlers tell apart ('none', 'friend', 'self', ...). */
  datatype Relationship = NoRelationship | Friend | Self | OutgoingFriendRequest | IncomingFriendRequest

  /** The relationships that open a private book. */
  predicate Trusted(rel: Relationship) {
    rel == Self || rel == Friend
  }

  /**
   How `user`, whose record is `u`, stands to `id` in `get`: friendship is
   checked before identity, and an outgoing request before an incoming one.
   */
  function Classify(user: Id, u: Author, id: Id): (r: Relationship)
    ensures r == Friend <==> id in u.friends
    ensures r == Self <==> id == user && id !in u.friends
    ensures r == OutgoingFriendRequest <==> id !in u.friends && id != user && id in u.outgoingFriendRequests
    ensures r == IncomingFriendRequest <==>
      id !in u.friends && id != user && id !in u.outgoingFriendRequests && id in u.incomingFriendRequests
    ensures r == NoRelationship <==>
      id !in u.friends && id != user && id !in u.outgoingFriendRequests && id !in u.incomingFriendRequests
  {
    if id in u.friends then Friend
    else if id == user then Self
    else if id in u.outgoingFriendRequests then OutgoingFriendRequest
    else if id in u.incomingFriendRequests then IncomingFriendRequest
    else NoRelationship
  }

  /** `get` with key 'relationship': the classification, or an error when the user has no record. */
  function GetRelationship(db: Db, user: Id, id: Id): (r: Result<Relationship>)
    ensures r.Failure? <==> user !in db.authors
    ensures r.Failure? ==> r.error == AuthorMissing
    ensures r.Success? ==> (r.value == Friend <==> id in db.authors[user].friends)
    ensures r.Success? ==> (Trusted(r.value) <==> id == user || id in db.authors[user].friends)
    ensures r.Success? ==> r.value == Classify(user, db.authors[user], id)
  {
    if user !in db.authors then Failure(AuthorMissing) else Success(Classify(user, db.authors[user], id))
  }

  /**
   How the searcher `searcher`, whose record is `s`, stands to a book's
   creator in `bookSearch`: identity is checked first, then friendship, and
   an incoming request before an outgoing one.
   */
  function SearchClassify(searcher: Id, s: Author, creator: Id): (r: Relationship)
    ensures r == Self <==> creator == searcher
    ensures r == Friend <==> creator != searcher && creator in s.friends
    ensures r == IncomingFriendRequest <==>
      creator != searcher && creator !in s.friends && creator in s.incomingFriendRequests
    ensures r == OutgoingFriendRequest <==>
      creator != searcher && creator !in s.friends && creator !in s.incomingFriendRequests && creator in s.outgoingFriendRequests
    ensures r == NoRelationship <==>
      creator != searcher && creator !in s.friends && creator !in s.incomingFriendRequests && creator !in s.outgoingFriendRequests
  {
    if creator == searcher then Self
    else if creator in s.friends then Friend
    else if creator in s.incomingFriendRequests then IncomingFriendRequest
    else if creator in s.outgoingFriendRequests then OutgoingFriendRequest
    else NoRelationship
  }

  /**
   The two classifiers check in different orders, and they part only where
   the orders matter: an author who lists themself as a friend, and two
   authors with requests pending both ways.
   */
  lemma ClassifiersDiffer(user: Id, u: Author, id: Id)
    ensures Classify(user, u, id) != SearchClassify(user, u, id) <==>
      || (id == user && id in u.friends)
      || (id != user && id !in u.friends && id in u.outgoingFriendRequests && id in u.incomingFriendRequests)
  {
  }

  /** Whatever their order, both classifiers open private books to the same authors. */
  lemma ClassifiersAgreeOnAccess(user: Id, u: Author, id: Id)
    ensures Trusted(Classify(user, u, id)) <==> Trusted(SearchClassify(user, u, id))
    ensures Trusted(SearchClassify(user, u, id)) <==> id == user || id in u.friends
  {
  }

  /**
   While the friendship lists are kept paired, two different authors see
   each other alike: friends on both sides or neither, unrelated on both
   sides or neither, and a request received on one side is a request sent
   on the other.
   */
  lemma RelationshipSymmetric(store: Friendship.Authors, user: Id, id: Id)
    requires user in store && id in store && user != id
    requires Friendship.Paired(store, user, id) && Friendship.Paired(store, id, user)
    ensures var there, back := Classify(user, store[user], id), Classify(id, store[id], user);
      && (there == Friend <==> back == Friend)
      && (there == NoRelationship <==> back == NoRelationship)
      && (there == IncomingFriendRequest ==> back == OutgoingFriendRequest)
      && (there == OutgoingFriendRequest ==> back == IncomingFriendRequest || back == OutgoingFriendRequest)
  {
  }

  /**
   The ids of `ids` that have a book record the viewer may see: a public
   one, or any one when `all` holds. Order and repeats are kept.
   */
  function Viewable(books: map<Id, Book>, ids: seq<Id>, all: bool): (r: seq<Id>)
    ensures forall x :: Count(r, x) == if x in books && (all || books[x].isPublic) then Count(ids, x) else 0
    ensures IsSubsequence(r, ids)
  {
    if |ids| == 0 then []
    else
      assert ids == [ids[0]] + ids[1..];
      var rest := Viewable(books, ids[1..], all);
      if ids[0] in books && (all || books[ids[0]].isPublic) then
        SubsequenceCons(rest, ids[1..], ids[0]);
        [ids[0]] + rest
      else
        SubsequencePrepend(rest, ids[1..], ids[0]);
        rest
  }

  /** `get` with key 'publicBooks': the author's books that exist and are public, in the author's order. */
  function PublicBooks(db: Db, id: Id): (r: Result<seq<Id>>)
    ensures r.Failure? <==> id !in db.authors
    ensures r.Failure? ==> r.error == AuthorMissing
    ensures r.Success? ==> IsSubsequence(r.value, db.authors[id].books)
    ensures r.Success? ==> forall x :: (Count(r.value, x) ==
      if x in db.books && db.books[x].isPublic then Count(db.authors[id].books, x) else 0)
  {
    if id !in db.authors then Failure(AuthorMissing) else Success(Viewable(db.books, db.authors[id].books, false))
  }

  /**
   `get` with key 'profileBooks', with the relationship taken from the
   classifier of `get`: the author's own list for the author, every existing
   book for a friend, the existing public books for anyone else.
   */
  function ProfileBooks(db: Db, user: Id, id: Id): (r: Result<seq<Id>>)
    ensures r.Failure? <==> user !in db.authors || id !in db.authors
    ensures r.Failure? ==> r.error == AuthorMissing
    ensures r.Success? ==> IsSubsequence(r.value, db.authors[id].books)
    ensures r.Success? && Classify(user, db.authors[user], id) == Self ==> r.value == db.authors[id].books
    ensures r.Success? && Classify(user, db.authors[user], id) != Self ==>
      var friend := Classify(user, db.authors[user], id) == Friend;
      forall x :: Count(r.value, x) ==
        if x in db.books && (friend || db.books[x].isPublic) then Count(db.authors[id].books, x) else 0
  {
    if user !in db.authors || id !in db.authors then Failure(AuthorMissing)
    else
      var rel := Classify(user, db.authors[user], id);
      if rel == Self then
        SubsequenceReflexive(db.authors[id].books);
        Success(db.authors[id].books)
      else Success(Viewable(db.books, db.authors[id].books, rel == Friend))
  }

  /**
   `get` with key 'profileBooks' as written: `getRelationship` is imported
   from other/handler.js, which neither defines nor exports it, so the call
   throws as soon as both authors are found.
   */
  function ProfileBooksAsWritten(db: Db, user: Id, id: Id): (r: Result<seq<Id>>)
    ensures user !in db.authors || id !in db.authors ==> r == Failure(AuthorMissing)
    ensures user in db.authors && id in db.authors ==> r == Failure(TypeError)
  {
    if user !in db.authors || id !in db.authors then Failure(AuthorMissing) else Failure(TypeError)
  }

  /** As written, no profile is ever shown; with the classifier of `get`, every profile of two existing authors is. */
  lemma ProfileBooksAsWrittenFails(db: Db, user: Id, id: Id)
    requires user in db.authors && id in db.authors
    ensures ProfileBooksAsWritten(db, user, id).Failure?
    ensures ProfileBooks(db, user, id).Success?
  {
  }

  /** Opening private books only adds entries: the public view is a subsequence of the full view. */
  lemma {:induction false} ViewableGrows(books: map<Id, Book>, ids: seq<Id>)
    ensures IsSubsequence(Viewable(books, ids, false), Viewable(books, ids, true))
  {
    if |ids| > 0 {
      ViewableGrows(books, ids[1..]);
      var pub, all := Viewable(books, ids[1..], false), Viewable(books, ids[1..], true);
      if ids[0] in books && books[ids[0]].isPublic {
        SubsequenceCons(pub, all, ids[0]);
      } else if ids[0] in books {
        SubsequencePrepend(pub, all, ids[0]);
      }
    }
  }

  /** With every listed book on record, the full view is the whole list. */
  lemma {:induction false} ViewableAll(books: map<Id, Book>, ids: seq<Id>)
    requires forall i :: 0 <= i < |ids| ==> ids[i] in books
    ensures Viewable(books, ids, true) == ids
  {
    if |ids| > 0 {
      ViewableAll(books, ids[1..]);
      assert ids == [ids[0]] + ids[1..];
    }
  }

  /** Nobody's view of a profile leaves out a book the public list shows, and it keeps their order. */
  lemma ProfileShowsPublic(db: Db, user: Id, id: Id)
    requires user in db.authors && id in db.authors
    ensures IsSubsequence(PublicBooks(db, id).value, ProfileBooks(db, user, id).value)
  {
    var rel := Classify(user, db.authors[user], id);
    if rel == Friend {
      ViewableGrows(db.books, db.authors[id].books);
    } else if rel != Self {
      SubsequenceReflexive(PublicBooks(db, id).value);
    }
  }

  /** A friend, like the author, sees the whole list when every listed book is on record. */
  lemma FriendSeesEverything(db: Db, user: Id, id: Id)
    requires user in db.authors && id in db.authors
    requires Trusted(Classify(user, db.authors[user], id))
    requires forall i :: 0 <= i < |db.authors[id].books| ==> db.authors[id].books[i] in db.books
    ensures ProfileBooks(db, user, id) == Success(db.authors[id].books)
  {
    ViewableAll(db.books, db.authors[id].books);
  }

  /** Anyone neither the author nor a friend sees exactly the public list. */
  lemma OthersSeePublic(db: Db, user: Id, id: Id)
    requires user in db.authors && id in db.authors
    requires !Trusted(Classify(user, db.authors[user], id))
    ensures ProfileBooks(db, user, id) == PublicBooks(db, id)
  {
  }

  /** The ids of `ids` that have a scrap record placed in no book, in order. */
  function Unbooked(scraps: map<Id, Scrap>, ids: seq<Id>): (r: seq<Id>)
    ensures forall x :: Count(r, x) == if x in scraps && scraps[x].book == "" then Count(ids, x) else 0
    ensures IsSubsequence(r, ids)
  {
    if |ids| == 0 then []
    else
      assert ids == [ids[0]] + ids[1..];
      var rest := Unbooked(scraps, ids[1..]);
      if ids[0] in scraps && scraps[ids[0]].book == "" then
        SubsequenceCons(rest, ids[1..], ids[0]);
        [ids[0]] + rest
      else
        SubsequencePrepend(rest, ids[1..], ids[0]);
        rest
  }

  /** `get` with key 'unbookedScraps': the author's existing scraps that are in no book, in the author's order. */
  function UnbookedScraps(db: Db, id: Id): (r: Result<seq<Id>>)
    ensures r.Failure? <==> id !in db.authors
    ensures r.Failure? ==> r.error == AuthorMissing
    ensures r.Success? ==> IsSubsequence(r.value, db.authors[id].scraps)
    ensures r.Success? ==> forall x :: (Count(r.value, x) ==
      if x in db.scraps && db.scraps[x].book == "" then Count(db.authors[id].scraps, x) else 0)
  {
    if id !in db.authors then Failure(AuthorMissing) else Success(Unbooked(db.scraps, db.authors[id].scraps))
  }

  /** A scrap taken out of a book by `removeScrap` is listed among its author's unbooked scraps. */
  lemma RemoveScrapUnbooks(db: Db, book: Id, scrap: Id, author: Id)
    requires book in db.books && scrap in db.scraps
    requires author in db.authors && scrap in db.authors[author].scraps
    ensures scrap in UnbookedScraps(Membership.RemoveScrap(db, book, scrap).store, author).value
  {
    var after := Membership.RemoveScrap(db, book, scrap).store;
    assert after.authors == db.authors;
    assert Count(UnbookedScraps(after, author).value, scrap) == Count(db.authors[author].scraps, scrap);
  }

  /** A scrap placed in a book by `addScrap` is no longer among its author's unbooked scraps. */
  lemma AddScrapBooks(db: Db, book: Id, scrap: Id, author: Id)
    requires book in db.books && scrap in db.scraps && book != ""
    requires author in db.authors
    ensures scrap !in UnbookedScraps(Membership.AddScrap(db, book, scrap).store, author).value
  {
    var after := Membership.AddScrap(db, book, scrap).store;
    assert after.scraps[scrap].book == book;
    assert Count(UnbookedScraps(after, author).value, scrap) == 0;
  }

  /**
   The `restrictedBooks` test: a book is withheld when it is private and its
   creator is neither the searcher nor one of the searcher's friends.
   Pending requests, either way, open nothing.
   */
  function Unrestricted(searcher: Id, s: Author, b: Book): (r: bool)
    ensures r <==> b.isPublic || b.author == searcher || b.author in s.friends
  {
    !(!b.isPublic && !Trusted(SearchClassify(searcher, s, b.author)))
  }

  /** The filters a search may ask for in `remove`. */
  datatype Removal = SelfBooks | PrivateBooks | RestrictedBooks

  /** The entry of `remove` that switches a filter on. */
  function Key(rm: Removal): string {
    match rm
    case SelfBooks => "selfBooks"
    case PrivateBooks => "privateBooks"
    case RestrictedBooks => "restrictedBooks"
  }

  /**
   Whether a found book survives one filter. 'privateBooks' keeps the
   books that are NOT public: the comment above `bookSearch`'s filters says it
   removes private books, the test it applies does the opposite.
   */
  predicate Passes(rm: Removal, searcher: Id, s: Author, b: Book) {
    match rm
    case SelfBooks => b.author != searcher
    case PrivateBooks => !b.isPublic
    case RestrictedBooks => Unrestricted(searcher, s, b)
  }

  /** Every id in `ids` has a book record: what `Book.find` returns are documents. */
  ghost predicate Known(books: map<Id, Book>, ids: seq<Id>) {
    forall i :: 0 <= i < |ids| ==> ids[i] in books
  }

  /** One `filtered.filter(...)` pass. */
  function Apply(books: map<Id, Book>, ids: seq<Id>, rm: Removal, searcher: Id, s: Author): (r: seq<Id>)
    requires Known(books, ids)
    ensures Known(books, r)
    ensures forall x :: x in books ==> Count(r, x) == if Passes(rm, searcher, s, books[x]) then Count(ids, x) else 0
    ensures IsSubsequence(r, ids)
  {
    if |ids| == 0 then []
    else
      assert ids == [ids[0]] + ids[1..];
      var rest := Apply(books, ids[1..], rm, searcher, s);
      if Passes(rm, searcher, s, books[ids[0]]) then
        SubsequenceCons(rest, ids[1..], ids[0]);
        [ids[0]] + rest
      else
        SubsequencePrepend(rest, ids[1..], ids[0]);
        rest
  }

  /** A filter's pass when `remove` names it, and no change otherwise. */
  function Stage(books: map<Id, Book>, ids: seq<Id>, rm: Removal, searcher: Id, s: Author, remove: seq<string>): (r: seq<Id>)
    requires Known(books, ids)
    ensures Known(books, r)
    ensures forall x :: x in books ==>
      Count(r, x) == if Key(rm) !in remove || Passes(rm, searcher, s, books[x]) then Count(ids, x) else 0
    ensures IsSubsequence(r, ids)
  {
    if Key(rm) in remove then Apply(books, ids, rm, searcher, s)
    else
      SubsequenceReflexive(ids);
      ids
  }

  /**
   The `remove` filters of `bookSearch`, run in `bookSearch`'s order:
   'selfBooks', then 'privateBooks', then 'restrictedBooks'.
   */
  function SearchFilter(books: map<Id, Book>, found: seq<Id>, searcher: Id, s: Author, remove: seq<string>): (r: seq<Id>)
    requires Known(books, found)
    ensures Known(books, r)
    ensures forall x :: x in books ==>
      Count(r, x) == if Admitted(books[x], searcher, s, remove) then Count(found, x) else 0
    ensures IsSubsequence(r, found)
  {
    var a := Stage(books, found, SelfBooks, searcher, s, remove);
    var b := Stage(books, a, PrivateBooks, searcher, s, remove);
    var c := Stage(books, b, RestrictedBooks, searcher, s, remove);
    SubsequenceTransitive(b, a, found);
    SubsequenceTransitive(c, b, found);
    c
  }

  /** A book survives the search filters iff it passes every filter `remove` names. */
  predicate Admitted(b: Book, searcher: Id, s: Author, remove: seq<string>) {
    && ("selfBooks" in remove ==> b.author != searcher)
    && ("privateBooks" in remove ==> !b.isPublic)
    && ("restrictedBooks" in remove ==> Unrestricted(searcher, s, b))
  }

  /** The search filters as one pass over the found books: the reference for `SearchFilter`. */
  function Admit(books: map<Id, Book>, found: seq<Id>, searcher: Id, s: Author, remove: seq<string>): (r: seq<Id>)
    requires Known(books, found)
    ensures Known(books, r)
    ensures forall x :: x in books ==>
      Count(r, x) == if Admitted(books[x], searcher, s, remove) then Count(found, x) else 0
    ensures forall x :: x in r <==> x in books && x in found && Admitted(books[x], searcher, s, remove)
    ensures IsSubsequence(r, found)
  {
    if |found| == 0 then []
    else
      assert found == [found[0]] + found[1..];
      var rest := Admit(books, found[1..], searcher, s, remove);
      if Admitted(books[found[0]], searcher, s, remove) then
        SubsequenceCons(rest, found[1..], found[0]);
        [found[0]] + rest
      else
        SubsequencePrepend(rest, found[1..], found[0]);
        rest
  }

  /** A stage on a list with a known head: the head is kept or dropped, the tail is filtered alone. */
  lemma StageCons(books: map<Id, Book>, h: Id, t: seq<Id>, rm: Removal, searcher: Id, s: Author, remove: seq<string>)
    requires h in books && Known(books, t)
    ensures Known(books, [h] + t)
    ensures Stage(books, [h] + t, rm, searcher, s, remove) ==
      (if Key(rm) !in remove || Passes(rm, searcher, s, books[h]) then [h] else []) + Stage(books, t, rm, searcher, s, remove)
  {
    assert ([h] + t)[0] == h && ([h] + t)[1..] == t;
  }

  /** Running the three filters one after another is one pass that keeps what passes all the named ones. */
  lemma {:induction false} SearchFilterOnePass(books: map<Id, Book>, found: seq<Id>, searcher: Id, s: Author, remove: seq<string>)
    requires Known(books, found)
    ensures SearchFilter(books, found, searcher, s, remove) == Admit(books, found, searcher, s, remove)
  {
    if |found| > 0 {
      var h, t := found[0], found[1..];
      assert found == [h] + t;
      SearchFilterOnePass(books, t, searcher, s, remove);
      var b := books[h];
      var a1 := Stage(books, t, SelfBooks, searcher, s, remove);
      var a2 := Stage(books, a1, PrivateBooks, searcher, s, remove);
      StageCons(books, h, t, SelfBooks, searcher, s, remove);
      if Key(SelfBooks) !in remove || Passes(SelfBooks, searcher, s, b) {
        StageCons(books, h, a1, PrivateBooks, searcher, s, remove);
        if Key(PrivateBooks) !in remove || Passes(PrivateBooks, searcher, s, b) {
          StageCons(books, h, a2, RestrictedBooks, searcher, s, remove);
        }
      }
    }
  }

  /** What `bookSearch` passes on to sorting: at most this many of the filtered books. */
  const SearchLimit := 10

  /** `slice(0, n)`: the first `n` entries, or all of them when there are fewer. */
  function Take(s: seq<Id>, n: nat): (r: seq<Id>)
    ensures |r| <= n && |r| <= |s|
    ensures |r| == |s| || |r| == n
    ensures r == s[..|r|]
  {
    if |s| <= n then s else s[..n]
  }

  /**
   controllers/utilityController.js `bookSearch` after its text query: the
   query's matches `found` (in the order the query sorted them) are
   filtered as `remove` asks, the first ten kept, and those ordered by
   `beginDate` with `handleBookSort`.
   */
  function BookSearch(db: Db, searcher: Id, found: seq<Id>, remove: seq<string>): (r: Result<seq<Id>>)
    requires Known(db.books, found)
    ensures r.Failure? <==> searcher !in db.authors
    ensures r.Failure? ==> r.error == AuthorMissing
    ensures r.Success? ==>
      var top := Take(Admit(db.books, found, searcher, db.authors[searcher], remove), SearchLimit);
      && |r.value| == |top| <= SearchLimit
      && multiset(r.value) == multiset(top)
      && SortedBy(r.value, BeginDate(db.books))
      && (forall k :: WithKey(r.value, BeginDate(db.books), k) == WithKey(top, BeginDate(db.books), k))
  {
    if searcher !in db.authors then Failure(AuthorMissing)
    else
      var s := db.authors[searcher];
      var filtered := SearchFilter(db.books, found, searcher, s, remove);
      SearchFilterOnePass(db.books, found, searcher, s, remove);
      var top := Take(filtered, SearchLimit);
      var sorted := HandleBookSort(db.books, top);
      assert multiset(sorted) == multiset(top) by {
        forall x
          ensures multiset(sorted)[x] == multiset(top)[x]
        {
          if x !in db.books {
            assert x !in top;
          }
        }
      }
      Success(sorted)
  }

  /** Every book a search returns was found, passes the named filters, and is one of the first ten that do. */
  lemma BookSearchAdmits(db: Db, searcher: Id, found: seq<Id>, remove: seq<string>)
    requires Known(db.books, found) && searcher in db.authors
    ensures var r := BookSearch(db, searcher, found, remove);
            && r.Success?
            && forall x :: x in r.value ==>
                 && x in db.books && x in found && Admitted(db.books[x], searcher, db.authors[searcher], remove)
                 && x in Take(Admit(db.books, found, searcher, db.authors[searcher], remove), SearchLimit)
  {
    var r := BookSearch(db, searcher, found, remove).value;
    var top := Take(Admit(db.books, found, searcher, db.authors[searcher], remove), SearchLimit);
    forall x | x in r
      ensures && x in db.books && x in found && Admitted(db.books[x], searcher, db.authors[searcher], remove)
              && x in top
    {
      assert x in multiset(r);
      assert x in multiset(top);
    }
  }
}
